=== FILE: README.md ===
# Marketplace backend services: a Dafny model

This project models the business rules of a NestJS/TypeORM second-hand marketplace
backend. It covers likes, follows, signup, seller statistics, reviews, products, the
bearer-token guard, social login and the global exception filter. It does not model
the SQL. The database is an immutable value `Db` holding one table per relation.
A table is a sequence of rows with unique, increasing primary keys, plus the next key
to hand out (`Tables.Table`). Reading the rows back as a multiset (`Tables.Bag`) gives
each relation's contents.

Each service method is a pure function from a database (and the request's inputs) to
one of two outcomes:
- an exception (`Exceptions.Exception`);
- a result, paired with the new database when the method writes.

The exception filter (`Exceptions.Catch`) maps every exception to the `(status, code,
message)` triple the client receives. Foreign effects are parameters:
- the Kakao HTTP calls are reduced to the provider id they yield, or nothing;
- JWT signing is a function `sign` from user id to token;
- JWT verification is a partial function `verify` from token to user id;
- a product's creation time is the input `now`;
- a failing database statement inside the product transaction is the input `fault`.

Module layout:

- `Wrappers`: `Option` and `Result`.
- `Tables`: rows, `Where`, `Count`, `First`, `Get`, and the writes `Insert`, `Delete`, `Put`.
  - `Toggle` is the look-up-then-delete-or-insert step shared by likes and follows.
- `Exceptions`: exception kinds, the status-to-code table, and the filter.
- `Entities`: the records, the order-status enumeration, and `Db`.
- `Strings`: decimal text of ids, and MySQL's reading of a number off the front of a string.
- `Sorting`: `ORDER BY` as a sort with its specification.
- `Likes`, `Follows`, `Users`, `Reviews`, `Products`, `Guard`, `Auth`: one module per service.

## Model

| member | source | states |
|---|---|---|
| Tables.Get | src/users/users.service.ts:77-79 | Lookup by primary key finds a row of the table with that key, and finds nothing exactly when no row has the key |
| Tables.GetRow | src/users/users.service.ts:77-79 | In a table with unique keys, the lookup by a row's key returns that very row |
| Tables.First | src/likes/likes.service.ts:35-37 | `findOne` returns a row of the table that meets the condition, and returns nothing exactly when no row meets it |
| Tables.Insert | src/likes/likes.service.ts:44-46 | A save appends one row under a key no row had, and keeps keys unique and increasing |
| Tables.Delete | src/products/products.service.ts:229 | A delete by key removes every row with that key and keeps every other row |
| Tables.Put | src/users/users.service.ts:69-74 | An update by key replaces the data of the rows with that key and leaves all other rows alone |
| Tables.Toggle | src/likes/likes.service.ts:35-50 | The toggle reports "created" exactly when the value was absent, and keeps keys unique |
| Tables.ToggleBag | src/follow/follow.service.ts:22-41 | A toggle adds one copy of the value to the relation when it was absent, and removes one copy otherwise |
| Tables.ToggleCount | src/users/users.service.ts:147-170 | A toggle moves any count over the relation by +1, -1 or 0, depending on whether the toggled value is counted and which way the toggle went |
| Tables.ToggleTwice | src/likes/likes.service.ts:35-50 | Two toggles of a value that occurred at most once restore the relation's contents, and report opposite outcomes |
| Tables.ToggleTwiceFromAbsent | src/follow/follow.service.ts:22-41 | Starting from an absent value, two toggles give back exactly the same rows |
| Tables.ToggleKeepsNoDuplicates | src/likes/likes.service.ts:35-50 | A toggle never creates a second copy of a value: a relation without duplicates stays without them |
| Exceptions.MessageOf | src/common/http-exception.filter.ts:29-33 | The message is a string body itself, else the body's non-empty `message`, else "Internal Server Error" |
| Exceptions.Catch | src/common/http-exception.filter.ts:16-61 | The filter sends a triple for every exception. LIMIT_FILE_SIZE upload errors, and only they, get 400 with code E413. Any other non-HTTP exception gets 500 / INTERNAL_ERROR / default message. An HTTP exception keeps its status. Its code is INTERNAL_ERROR exactly when the status is not one of the five listed |
| Exceptions.StatusCodeRoundTrip | src/common/http-exception.filter.ts:36-43 | The five listed statuses map one-for-one to their codes, and each code maps back to its status |
| Exceptions.ServiceErrorsKeepTheirMessage | src/common/http-exception.filter.ts:27-43 | Each of the six exception classes the services throw reaches the client with its own status, its own code and the message it was thrown with |
| Exceptions.EmptyMessageFallsBack | src/common/http-exception.filter.ts:30-33 | An empty or absent message is replaced by the default text, whatever the status |
| Entities.OnlyPreparingHasCodeOne | src/orders/enums/order-status.enum.ts:1-15 | Status code 1 belongs to PREPARING and to no other order status |
| Strings.NatToString | src/users/users.service.ts:54 | An id interpolated into a message is a non-empty run of decimal digits |
| Strings.LeadingNumberOfNatToString | src/products/products.service.ts:132-134 | MySQL reads the decimal text of a key back as that key |
| Sorting.SortBy | src/products/products.service.ts:122-129 | `ORDER BY` yields the same rows (a permutation) ordered by the key in the requested direction |
| Likes.ToggleLike | src/likes/likes.service.ts:22-51 | Fails with 404 exactly when the user or the product is missing. Otherwise only the like relation changes, and the result is UNLIKED exactly when the pair was already liked |
| Likes.ToggleLikeMissingIs404 | src/likes/likes.service.ts:27-33 | A missing product reaches the client as 404 NOT_FOUND with the service's message |
| Likes.ToggleLikeRemoves | src/likes/likes.service.ts:35-43 | An existing like is removed (one copy of the pair leaves the relation) and UNLIKED is returned |
| Likes.ToggleLikeCreates | src/likes/likes.service.ts:44-50 | A missing like is inserted exactly once and LIKED is returned |
| Likes.ToggleLikeFrame | src/likes/likes.service.ts:39-50 | Likes of every other (user, product) pair keep their multiplicity |
| Likes.ToggleLikeKeepsPairsUnique | src/likes/likes.service.ts:35-50 | If each pair is liked at most once before a toggle, the same holds after it |
| Likes.ToggleLikeTwice | src/likes/likes.service.ts:35-50 | A second toggle of the same pair succeeds, restores the like relation, changes nothing else, and reports the opposite outcome |
| Follows.ToggleFollow | src/follow/follow.service.ts:17-42 | `followed` is true exactly when the pair was not followed. Exactly one copy of the pair is inserted or removed. Only the follow relation changes |
| Follows.ToggleFollowChecksNothing | src/follow/follow.service.ts:17-42 | A self-follow is stored like any other toggle, because the service never compares follower and followee; the users table is untouched |
| Follows.ToggleFollowTwice | src/follow/follow.service.ts:22-41 | Two toggles of a pair restore the follow relation and return opposite flags; other pairs are never touched |
| Follows.Followees | src/follow/follow.service.ts:51-55 | Mapping fetched follow rows gives one entry per row, in the same order. Each entry carries the row's followee id and the nickname and image of the users row with that key. A plain error comes back exactly when some followee has no users row, because reading a field of the null join throws |
| Follows.GetFollowingList | src/follow/follow.service.ts:44-56 | One entry per follow row whose follower is the user, in table order, carrying the followee's id, nickname and image. If some followee row is gone, the call throws |
| Users.FollowingListMatchesStatistics | src/follow/follow.service.ts:44-56 | A following list that comes back has exactly as many entries as the user's `followingNum` statistic counts |
| Users.CreateSocialUser | src/users/users.service.ts:29-43 | The new user carries the provider id and KAKAO; nickname, address, image and introduction are empty and coordinates 0; the `name` key is not stored, because the entity does not declare it; the user is appended under a fresh key and nothing else changes |
| Users.FindBySocialId | src/users/users.service.ts:81-83 | A found user carries the requested provider id, and none is found exactly when no user carries it. An absent id finds the first user |
| Users.CreatedUserIsFound | src/users/users.service.ts:29-43 | The user created for an unused provider id is the user that id finds afterwards |
| Users.CreateUserData | src/users/users.service.ts:45-75 | 404 with the id in the message for an unknown user. Otherwise 409 exactly when the stored nickname is non-empty. Success overwrites nickname, address, latitude and longitude of that user only |
| Users.SignupOnlyOnce | src/users/users.service.ts:59-74 | After a signup with a non-empty nickname, any further signup of that user is refused with 409 |
| Users.EmptyNicknameLeavesSignupOpen | src/users/users.service.ts:59-74 | A signup with an empty nickname leaves the guard open: the same signup succeeds again |
| Users.GetUserDetailById | src/users/users.service.ts:85-194 | Defines each seller statistic by the rows it counts, in terms of the relations. Also: a plain error for an unknown user; a `name` present only when non-empty; product ids absent exactly when there are no products, and otherwise naming exactly the user's products. `starAvg` times the review count is the rating total, and it is 0 with no reviews |
| Users.SoldIds | src/users/users.service.ts:103-110 | The product-id list is absent exactly when the user sells nothing. Otherwise it has one id per product sold, each id is a product the user owns, and every product the user sells has its id in the list |
| Users.Mean | src/users/users.service.ts:111-119 | The average times the review count is the rating total. With no reviews, the SQL average is NULL, and line 192 turns it into 0 |
| Users.MeanBounds | src/users/users.service.ts:111-119 | The average of ratings that all lie in [lo, hi] lies in [lo, hi] |
| Users.StarAverageBounds | src/users/users.service.ts:111-118 | When every rating of the seller's reviews lies in [lo, hi], the average does too |
| Users.SoldOutCountsPreparingOrders | src/users/users.service.ts:137-145 | The sold-out count counts exactly the PREPARING orders of the seller's products |
| Users.LikeNumFollowsToggle | src/users/users.service.ts:147-153 | A like raises the liker's `likeNum` by one and an unlike lowers it by one; other users' counts do not move |
| Users.FollowCountsFollowToggle | src/users/users.service.ts:155-170 | A follow toggle moves the follower's following count and the followee's follower count together by the same one |
| Users.GetFollow | src/users/users.service.ts:196-216 | As written: no answer exactly when the follow table is empty, otherwise whether the pair is followed |
| Users.GetFollowLosesAnswerOnEmptyTable | src/users/users.service.ts:200-215 | Unfollowing the only follow row leaves `getFollow` with no answer, where 0 is meant |
| Users.GetFollowFixed | src/users/users.service.ts:196-216 | The existence answer: true exactly when the follow pair is in the relation |
| Users.GetFollowAfterToggle | src/users/users.service.ts:196-216 | After a follow toggle, the existence answer equals the toggle's `followed` flag |
| Users.FindOne | src/users/users.service.ts:218-245 | As written. Fails exactly when the shop owner or the caller is unknown, always as a plain error. `isMyShop` holds exactly for one's own shop. `shopData` is the owner's detail and `myData` the caller's. `isFollow` is `getFollow`'s raw answer: absent exactly when the follow table is empty, otherwise whether the caller follows the owner |
| Users.FindOneFixed | src/users/users.service.ts:218-245 | The page with the corrected answer: the same page as `findOne`, except that `isFollow` is always present and holds exactly when the caller follows the owner |
| Users.FindOneFollowsToggle | src/users/users.service.ts:228-233 | As written, after a follow toggle the page's `isFollow` is the toggle's outcome, except that it is absent when the toggle emptied the follow table |
| Users.FindOneFixedFollowsToggle | src/users/users.service.ts:228-233 | With the corrected answer, after a follow toggle the page's `isFollow` is always the toggle's outcome |
| Users.FindOneNeverNotFound | src/users/users.service.ts:220-227 | An unknown shop owner reaches the client as 500, never as the 404 the code spells out |
| Users.ApplyPatch | src/users/users.service.ts:257 | Each key the body carries is copied onto the user, including the provider id and platform, and each key it omits leaves that column as it was; `name` is kept |
| Users.UpdateUser | src/users/users.service.ts:247-261 | 404 exactly for an unknown user; otherwise that user's row becomes the patched user, which is returned, and no other row or table changes |
| Users.EmptyPatchChangesNothing | src/users/users.service.ts:257-258 | A patch with no fields returns the stored user and leaves the database as it was |
| Users.UpdateUserIdempotent | src/users/users.service.ts:257-258 | Applying the same patch a second time returns the same user and leaves the database as the first call left it |
| Reviews.CreateReview | src/review/review.service.ts:27-61 | 409 exactly when the user already reviewed the product, checked before product existence. Otherwise 404 exactly when the product is missing. Success happens exactly when neither applies, and appends one review with the given contents and rating under a fresh key |
| Reviews.ReviewOnlyOnce | src/review/review.service.ts:34-44 | After one successful review, every further review of that product by that user is refused with 409 |
| Reviews.CreateReviewMovesSellerStatistics | src/review/review.service.ts:53-60 | A new review adds one to the review count and its rating to the rating total of the product's seller, and changes neither for any other user |
| Reviews.DeleteReview | src/review/review.service.ts:87-115 | 404 exactly for an unknown review. A plain error when its author row is gone. 403 exactly when the caller is not the author. Success happens exactly when the review and its author exist and the caller is the author; it removes that review and keeps all others. The "nothing to delete" 404 never happens |
| Reviews.CreateThenDeleteReview | src/review/review.service.ts:27-115 | The author of a review just created can delete it, and the delete gives back the review rows as they were before the create; no other table changes |
| Reviews.EntryOf | src/review/review.service.ts:71-84 | A list entry carries the review's product, contents and rating. It also carries the author's id, nickname and image when the author exists, and NULLs when not |
| Reviews.GetReviewsByUser | src/review/review.service.ts:63-85 | 404 exactly for an unknown user. Otherwise one entry for each review of a product the user sells, and one for every such review |
| Reviews.ReviewListMatchesStatistics | src/review/review.service.ts:71-84 | The review list has as many entries as the seller's review count, and its rates add up to the rating total behind the average |
| Products.InsertAll | src/products/products.service.ts:77-88 | Saving image rows appends them in request order under consecutive fresh keys, keeps the earlier rows, and keeps keys unique |
| Products.Create | src/products/products.service.ts:40-100 | All or nothing. A failing statement gives 500 "상품 생성 실패" and no change. Success appends the product and one image row per requested URL, in order, pointing at the new product; nothing else changes |
| Products.CreatedProductHasRequestedImages | src/products/products.service.ts:75-88 | The new product's images are exactly the requested URLs, in request order |
| Products.CardOf | src/products/products.service.ts:105-120 | A list card carries the product's id, price and creation time, its category when that exists, and its image URLs |
| Products.FindAll | src/products/products.service.ts:102-140 | The cards of the listed products, as a permutation: price descending for `pHigh`, price ascending for `pLow`, newest first otherwise |
| Products.FindAllWithoutCategoryListsAll | src/products/products.service.ts:131-136 | Without a category (absent or empty), every product is listed, and the list is as long as the product table |
| Products.CategorySelects | src/products/products.service.ts:131-134 | The category condition keeps exactly the products whose category is the number the text starts with, and only when that category exists |
| Products.CategoryCards | src/products/products.service.ts:131-134 | Under a category text, a card is listed exactly when it is the card of a product of that existing category |
| Products.FindAllByCategoryKey | src/products/products.service.ts:132-134 | With a category key given as decimal text, a card is in the listing exactly when it is the card of a product of that category, and the category exists |
| Products.FindOne | src/products/products.service.ts:142-204 | 404 exactly for an unknown product; a plain error when its seller row is gone. Otherwise the page carries the product and the seller's product and follower counts, plus the product's reviews. `isLiked` holds exactly when the caller likes the product |
| Products.IsLikedFollowsToggle | src/products/products.service.ts:187-202 | After a like toggle, the page's `isLiked` equals the toggle's outcome |
| Products.Remove | src/products/products.service.ts:212-233 | 404 exactly for an unknown product. A plain error when its seller row is gone. 403 exactly when the caller is not the seller. Success happens exactly when the product and its seller exist and the caller is the seller; it deletes that product only |
| Products.RemovedProductIsGone | src/products/products.service.ts:229-232 | After a remove, the product page is 404 and every other product is found as before |
| Guard.CanActivate | src/auth/guards/jwt-auth.guard.ts:21-70 | The decision, by cases. A missing or empty header gives 401 "Access token required". A header without "Bearer " gives 401 "Invalid access token type". Otherwise admission happens exactly when the token after the prefix verifies to an existing user, and any other outcome is 401 "Invalid token". An admitted request acts as the user the token names |
| Guard.RefusalsAre401 | src/auth/guards/jwt-auth.guard.ts:26-69 | Every refusal reaches the client as 401 UNAUTHORIZED with one of the guard's three messages |
| Guard.TokenFollowsPrefix | src/auth/guards/jwt-auth.guard.ts:35-36 | The token checked is the header with its first seven characters removed |
| Guard.IssuedTokenAdmits | src/auth/guards/jwt-auth.guard.ts:47-62 | A token issued for an existing user admits the request as that user |
| Auth.Login | src/auth/auth.service.ts:20-37 | As written: 401 "Invalid credentials" exactly when the lookup finds no user. Given a provider id, the token is that of a user carrying that id; given none, it is the first user's token |
| Auth.LoginWithoutSocialIdSignsFirstUser | src/auth/auth.service.ts:20-30 | A login body without a provider id, which is what the login body type declares, gets a token for the first user |
| Auth.LoginFixed | src/auth/auth.service.ts:20-37 | 401 exactly when no provider id is given or no user carries it; otherwise a token for a user carrying that id |
| Auth.LoginTokenPassesGuard | src/auth/auth.service.ts:20-37 | The token a successful corrected login returns passes the guard, which then acts as a user carrying the provider id that logged in |
| Auth.KakaoLogin | src/auth/auth.service.ts:39-102 | A failed provider call is a plain error. For a known id: a member session for the holder, and no change. For an unknown id: one new empty-nickname user appended for it, and a non-member session under the new user's token |
| Auth.KakaoLoginTwice | src/auth/auth.service.ts:80-90 | Two logins with a new provider id leave exactly one user holding it. The first is a non-member and the second a member, under the same token; the second changes nothing |
| Auth.KakaoLoginMemberChangesNothing | src/auth/auth.service.ts:80-86 | A returning member is signed in and the database is unchanged |
| Auth.KakaoTokenPassesGuard | src/auth/auth.service.ts:93-101 | The issued token passes the guard as a user holding the provider id the login resolved or created |

## Left out

- The Kakao OAuth HTTP calls are foreign calls. The model keeps only the provider id they yield, or their failure. A failure surfaces as a plain error (500), because the code does not catch it.
- JWT signing and verification are cryptography. They are the parameters `sign` and `verify`. Expiry, the secret, and tokens whose `data` claim is not a user id are not modelled.
- The logger, the clock and the request-id strings (`lhd`) are I/O. The only timestamp kept is a product's `createdAt`, taken as the input `now`.
- Controllers, modules, upload interceptors (S3, multer limits), DTO decorators and the success envelope are framework wiring. No validation pipe is installed, so no DTO constraint is enforced. `SignupForm` always carries all four fields, and `UserPatch` carries only the fields `UpdateUserDto` declares.
- `getLikesByUserId` (src/likes/likes.service.ts:53-71), the orders, categories and tosspayment services, and the product stubs `findStoreOne` and `update` are left out. They are pure query projections or stubs without logic.
- Database constraints are not represented: the unique nickname column, foreign keys, the unique index on reviews, and cascade behaviour on delete. A statement the database rejects appears only where the code handles it: the `fault` input of `Products.Create`. The members whose results this changes are listed one per line below.
- Auth.KakaoLogin, Users.CreateSocialUser: `createSocialUser` inserts the empty placeholder nickname (src/users/users.service.ts:34). While another user still holds it, the insert fails at the unique nickname index (src/users/entities/user.entity.ts:19), which is a 500. The model always appends the user, so a second newcomer's first login succeeds and two users may hold the empty nickname.
- Reviews.CreateReview: a body without `productId` is not modelled; `productId` is always a key. No validation pipe is installed, so the `@IsInt()` on the body type (src/review/dto/create-review.dto.ts:9) is never enforced. The repository drops an undefined condition, so the duplicate check (src/review/review.service.ts:35-38) would ask whether the user reviewed anything at all, giving 409 if so. Otherwise the product lookup (line 47) would find some product, and a review with no product would be saved.
- Reviews.CreateReview: the one-to-one link between a review and its product makes a review of a product that another user already reviewed fail at the database, which is a 500. The model lets it succeed.
- Users.CreateUserData: a nickname that another user already holds fails at the unique nickname index (src/users/entities/user.entity.ts:19), which is a 500. The model stores it and succeeds, so two users may share a nickname in the model.
- Users.UpdateUser: a patch carrying a nickname that another user already holds fails at the same unique index, which is a 500. The model applies the patch and succeeds.
- Follows.ToggleFollow: the follower and followee columns are foreign keys to users (src/follow/entities/follow.entity.ts:9-15), so inserting a follow that names a missing user fails, which is a 500. The model stores the pair for any ids, and its Ok result does not promise that both users exist.
- Follows.ToggleFollowChecksNothing: the stored self-follow is the database's answer only when a users row carries the id. For a missing id the insert fails at the foreign key, as for Follows.ToggleFollow.
- Products.Remove: the likes, orders and reviews relations reference the product by foreign key without `onDelete` (src/likes/entities/like.entity.ts:20-21, src/orders/entities/order.entity.ts:27-28, src/review/entities/review.entity.ts:28-29). Deleting a product that any of them still references is rejected by the database, which is a 500. The model deletes it, so its Ok-iff leaves out "no like, order or review references the product".
- Products.FindOne: two source defects are not modelled. (1) The follower count queries the `followee` property of the `Follow` class imported from src/users/entities/follow.entity.ts, which declares only `follower` and `following`. The products module does not register that class either. Such a query plausibly throws, so every page of a product whose seller exists would be a 500. (2) The page reads reviews from the `reviews` table (src/reviews/entities/review.entity.ts), while `createReview` writes the `review` table (src/review/entities/review.entity.ts), so a review created through the API would never appear. (3) The query selects `seller.user_image`, which is the column name, while the entity property is `userImage` (src/users/entities/user.entity.ts:33-34). The query builder hydrates only selections written as property paths, so `store.userImage` is plausibly undefined. The model carries the stored image. The image URLs come from a join without `ORDER BY`, so their order is unspecified; the model keeps table order. The model counts the seller's followers by followee in its one follow relation and reads its one review relation.
- Products.CardOf: the list query selects `product.created_at` (src/products/products.service.ts:113), which is the column name, while the entity property is `createdAt` (src/products/entities/product.entity.ts:72-73). The query builder hydrates only selections written as property paths, so a card's `createdAt` is plausibly undefined. The model carries the stored time. The sort itself is written in SQL and is not affected. The image URLs come from a join without `ORDER BY`, so their order is unspecified; the model keeps table order.
- Products.Create: a failing statement leaves the tables as they were, but InnoDB does not give back an auto-increment value, so in the source the next key has moved. The model's `nextId` has not. Keys are opaque to callers, so only the numbering differs.
- Prices, latitudes and longitudes are integers, not decimals.
- Users.GetUserDetailById, Users.Mean: the average is the exact rational average. MySQL's `AVG` over integers returns a decimal rounded to four places, and that rounding is not modelled. `sellerOpenDay` (the user's creation time) is not carried.
- Users.GetUserDetailById: the order of the ids `JSON_ARRAYAGG` returns is unspecified in MySQL. The model keeps table order.
- Users.ApplyPatch, Users.UpdateUser: a body key `id` (or any other key outside the user's columns) is not modelled. `Object.assign` would copy `id`, and `save` would then write the patched user to the row with that key, or insert one, instead of the caller's row. So "no other row changes" holds only for bodies without `id`.
- Follows.GetFollowingList: the query has no `ORDER BY`, so MySQL returns the rows in an unspecified order. The model keeps table order.
- Reviews.GetReviewsByUser: the query has no `ORDER BY`, so MySQL returns the rows in an unspecified order. The model keeps table order.
- Products.FindAll: only the order of the sort key is specified. Ties may come in any order, as in MySQL.
- Products.InCategory reads only the leading digits of the category parameter. MySQL's full string-to-number conversion also accepts signs, spaces and decimals, and that is not modelled.
- The string values of the application's error codes are defined in a file that is not part of this model, so `ErrorCode` is symbolic.
- The source declares two `Follow` entities and two `Review` entities. The model has one follow relation and one review relation, shared by every service; the line on Products.FindOne above says what that hides.
- Users.GetUserDetailById: the statistics query selects `u.name`, but the user entity declares no `name` column. With schema synchronisation switched on (src/app.module.ts:26), such a column plausibly does not exist, and the query would then fail for every user. The model assumes the column exists outside the entity and reads it as the optional `name`. The application never writes it: `createSocialUser` passes `name`, but the repository drops keys the entity does not declare.
- Concurrent requests are not modelled. Every operation runs alone, so the look-up-then-insert races on likes, follows and reviews cannot occur.
- The described behaviour differs from the code in three places, and the model follows the code:
  - `likeNum` counts the likes a user gave, not the likes received;
  - a failing Kakao call is a 500, not a dedicated upstream error;
  - the not-found branch of the shop page is unreachable.

## Findings

| source | as written | input that shows it | evidently intended | confidence | as-written member | corrected member |
|---|---|---|---|---|---|---|
| src/users/users.service.ts:200-215 | The `EXISTS(...)` answer is selected once per row of the follow table itself (`FROM follow dummy`), so over an empty follow table no row comes back and `isFollow` is `undefined` | The follow table holds one row (a, b); a unfollows b; a opens b's shop page | `{ existence: 0 }` whenever the pair is not followed, as the comment on line 215 says | high; not executed | Users.GetFollow, Users.FindOne, Users.GetFollowLosesAnswerOnEmptyTable, Users.FindOneFollowsToggle | Users.GetFollowFixed, Users.FindOneFixed (see Users.GetFollowAfterToggle, Users.FindOneFixedFollowsToggle) |
| src/auth/auth.service.ts:20-30 | `login` looks the user up by `dto.socialId`, but the login body type declares only `code` (src/auth/dto/login.dto.ts:11). An absent `socialId` makes the repository drop the condition, so the first user is found and receives a token | A login body `{ "code": "x" }` while the user table is non-empty | A request naming no provider id is refused with 401 "Invalid credentials" | medium (relies on the repository ignoring an undefined condition); not executed | Auth.Login, Auth.LoginWithoutSocialIdSignsFirstUser | Auth.LoginFixed (see Auth.LoginTokenPassesGuard) |

=== FILE: auth.dfy ===
/**
 `AuthService` (src/auth/auth.service.ts).  Token signing is the parameter `sign`,
 the token issued for a `data` claim holding a user id.  The two Kakao HTTP calls
 are reduced to their outcome: the provider's user id, or nothing when either call
 fails.
 */
module Auth {
  import opened Wrappers
  import opened Tables
  import opened Exceptions
  import opened Entities
  import opened Users
  import Guard

  const InvalidCredentials: string := "Invalid credentials"

  /**
   `login` as written: the user found by the request's `socialId` gets a token.  The
   login body declares no `socialId`, and for an absent id the lookup drops its
   condition and finds the first user.
   */
  function Login(db: Db, socialId: Option<string>, sign: nat -> string): (r: Query<string>)
    ensures r.Err? <==> FindBySocialId(db, socialId).None?
    ensures r.Err? ==> r.error == UnauthorizedError(InvalidCredentials)
    ensures r.Ok? ==> exists i :: 0 <= i < |db.users.rows| && r.value == sign(db.users.rows[i].id)
    ensures r.Ok? && socialId.Some? ==>
      exists i :: (0 <= i < |db.users.rows| && db.users.rows[i].data.socialId == socialId.value
                   && r.value == sign(db.users.rows[i].id))
    ensures r.Ok? && socialId.None? ==> r.value == sign(db.users.rows[0].id)
  {
    match FindBySocialId(db, socialId)
    case None => Err(UnauthorizedError(InvalidCredentials))
    case Some(user) => Ok(sign(user.id))
  }

  /** A body without `socialId` is signed in as the first user of the table. */
  lemma LoginWithoutSocialIdSignsFirstUser(db: Db, sign: nat -> string)
    requires |db.users.rows| > 0
    ensures Login(db, None, sign) == Ok(sign(db.users.rows[0].id))
  {
  }

  /** `login` refusing a request that names no provider id. */
  function LoginFixed(db: Db, socialId: Option<string>, sign: nat -> string): (r: Query<string>)
    ensures r.Err? <==> socialId.None? || forall i :: 0 <= i < |db.users.rows| ==> db.users.rows[i].data.socialId != socialId.value
    ensures r.Err? ==> r.error == UnauthorizedError(InvalidCredentials)
    ensures r.Ok? ==> exists i :: (0 <= i < |db.users.rows| && db.users.rows[i].data.socialId == socialId.value
                                   && r.value == sign(db.users.rows[i].id))
  {
    if socialId.None? then Err(UnauthorizedError(InvalidCredentials))
    else
      match FindBySocialId(db, socialId)
      case None => Err(UnauthorizedError(InvalidCredentials))
      case Some(user) => Ok(sign(user.id))
  }

  /** What `kakaoLogin` returns. */
  datatype Session = Session(accessToken: string, isMember: bool)

  /**
   `kakaoLogin`: the user holding the provider id signs in as a member; otherwise a
   new user is created for it and signs in as a non-member.  A failed provider call
   surfaces as a plain error.
   */
  function KakaoLogin(db: Db, kakaoId: Option<string>, sign: nat -> string): (r: Mutation<Session>)
    ensures r.Err? <==> kakaoId.None?
    ensures r.Err? ==> r.error == OtherError
    ensures r.Ok? ==> var k := kakaoId.value; var (session, db') := r.value;
      && (session.isMember <==> exists i :: 0 <= i < |db.users.rows| && db.users.rows[i].data.socialId == k)
      && (session.isMember ==> db' == db)
      && (session.isMember ==> exists i :: (0 <= i < |db.users.rows| && db.users.rows[i].data.socialId == k
                                            && session.accessToken == sign(db.users.rows[i].id)))
      && (!session.isMember ==> db' == db.(users := db'.users) && |db'.users.rows| == |db.users.rows| + 1)
      && (!session.isMember ==> db'.users.rows[..|db.users.rows|] == db.users.rows)
      && (!session.isMember ==> db'.users.rows[|db.users.rows|].data.socialId == k)
      && (!session.isMember ==> db'.users.rows[|db.users.rows|].data.nickname == "")
      && (!session.isMember ==> db'.users.rows[|db.users.rows|].data.name == None)
      && (!session.isMember ==> session.accessToken == sign(db'.users.rows[|db.users.rows|].id))
  {
    match kakaoId
    case None => Err(OtherError)
    case Some(k) =>
      match FindBySocialId(db, Some(k))
      case Some(user) => Ok((Session(sign(user.id), true), db))
      case None =>
        var (user, db') := CreateSocialUser(db, k, None);
        assert db'.users.rows[|db.users.rows|] == user;
        Ok((Session(sign(user.id), false), db'))
  }

  /** The number of users holding provider id `k`. */
  function Holders(db: Db, k: string): nat {
    Count(db.users.rows, OnData(SocialIdIs(k)))
  }

  /**
   Two logins with the same new provider id create one user: the first call signs
   up a non-member, the second finds that user, signs them in as a member under the
   same token, and changes nothing.
   */
  lemma KakaoLoginTwice(db: Db, k: string, sign: nat -> string)
    requires Holders(db, k) == 0
    ensures var (first, db1) := KakaoLogin(db, Some(k), sign).value;
      var (second, db2) := KakaoLogin(db1, Some(k), sign).value;
      && !first.isMember && second.isMember
      && db2 == db1 && Holders(db1, k) == 1
      && second.accessToken == first.accessToken
  {
    var p := OnData(SocialIdIs(k));
    WhereSound(db.users.rows, p);
    WhereComplete(db.users.rows, p);
    var (user, db1) := CreateSocialUser(db, k, None);
    CountAppend(db.users.rows, user, p);
    CreatedUserIsFound(db, k, None);
  }

  /** A returning member is signed in without any change to the database. */
  lemma KakaoLoginMemberChangesNothing(db: Db, k: string, sign: nat -> string)
    requires Holders(db, k) > 0
    ensures KakaoLogin(db, Some(k), sign).Ok? && KakaoLogin(db, Some(k), sign).value.1 == db
  {
    var p := OnData(SocialIdIs(k));
    WhereSound(db.users.rows, p);
    var w := Where(db.users.rows, p);
    assert w[0] in db.users.rows;
  }

  /** A member's token names the user the social id already belongs to. */
  lemma MemberTokenPassesGuard(db: Db, k: string, sign: nat -> string, verify: string -> Option<nat>)
    requires Valid(db.users) && FindBySocialId(db, Some(k)).Some?
    requires forall id: nat :: verify(sign(id)) == Some(id)
    ensures var r := Guard.CanActivate(db, Some(Guard.BearerPrefix + sign(FindBySocialId(db, Some(k)).value.id)), verify);
      r.Ok? && r.value.data.socialId == k
  {
    var user := FindBySocialId(db, Some(k)).value;
    var i :| 0 <= i < |db.users.rows| && db.users.rows[i] == user;
    GetRow(db.users, i);
    Guard.IssuedTokenAdmits(db, user.id, sign, verify);
  }

  /** A newcomer's token names the user row just created for the social id. */
  lemma NewcomerTokenPassesGuard(db: Db, k: string, sign: nat -> string, verify: string -> Option<nat>)
    requires Valid(db.users)
    requires forall id: nat :: verify(sign(id)) == Some(id)
    ensures var (user, db') := CreateSocialUser(db, k, None);
      var r := Guard.CanActivate(db', Some(Guard.BearerPrefix + sign(user.id)), verify);
      r.Ok? && r.value.data.socialId == k
  {
    var (user, db') := CreateSocialUser(db, k, None);
    var i := |db.users.rows|;
    assert db'.users.rows[i] == user;
    GetRow(db'.users, i);
    Guard.IssuedTokenAdmits(db', user.id, sign, verify);
  }

  /**
   The token `kakaoLogin` issues admits its holder through the guard as the user the
   login resolved or created, whenever verification recognises issued tokens.
   */
  lemma KakaoTokenPassesGuard(db: Db, k: string, sign: nat -> string, verify: string -> Option<nat>)
    requires Valid(db.users)
    requires forall id: nat :: verify(sign(id)) == Some(id)
    ensures var (session, db') := KakaoLogin(db, Some(k), sign).value;
      var r := Guard.CanActivate(db', Some(Guard.BearerPrefix + session.accessToken), verify);
      r.Ok? && r.value.data.socialId == k
  {
    if FindBySocialId(db, Some(k)).Some? {
      MemberTokenPassesGuard(db, k, sign, verify);
    } else {
      NewcomerTokenPassesGuard(db, k, sign, verify);
    }
  }

  /**
   The token a successful corrected `login` returns opens the guard, and the guard
   hands back a user carrying the provider id that logged in.
   */
  lemma LoginTokenPassesGuard(db: Db, k: string, sign: nat -> string, verify: string -> Option<nat>)
    requires Valid(db.users) && LoginFixed(db, Some(k), sign).Ok?
    requires forall id: nat :: verify(sign(id)) == Some(id)
    ensures var r := Guard.CanActivate(db, Some(Guard.BearerPrefix + LoginFixed(db, Some(k), sign).value), verify);
      r.Ok? && r.value.data.socialId == k
  {
    MemberTokenPassesGuard(db, k, sign, verify);
  }
}

=== FILE: entities.dfy ===
/**
 The rows of the marketplace database and the database itself.  Each record
 carries the columns the services read or write; relations are foreign keys
 (primary keys of the referenced table).  The review relation and the follow
 relation each appear once, although the repository declares two entity
 classes for each.
 */
module Entities {
  import opened Wrappers
  import opened Tables
  import opened Exceptions

  /** The login provider of a user; the enum's other members are not part of this model. */
  datatype SocialPlatform = Kakao

  /**
   A user.  `nickname` is empty until signup completes.  The user entity declares no
   `name` column; `name` stands for the value the detail query reads as `u.name`, a
   column outside the entity.  The application never writes it.
   */
  datatype User = User(
    address: string,
    latitude: int,
    longitude: int,
    userImage: string,
    nickname: string,
    description: string,
    socialId: string,
    platform: SocialPlatform,
    name: Option<string>)

  datatype Category = Category(name: string)

  /** A product; `seller` and `category` are foreign keys, `createdAt` the insertion time. */
  datatype Product = Product(
    seller: nat,
    name: string,
    description: Option<string>,
    price: int,
    location: string,
    latitude: int,
    longitude: int,
    status: int,
    category: nat,
    createdAt: int)

  datatype ProductImage = ProductImage(product: nat, url: string)

  /** A like row is exactly the pair (user, product). */
  datatype Like = Like(user: nat, product: nat)

  /** A follow row is exactly the pair (follower, followee). */
  datatype Follow = Follow(follower: nat, followee: nat)

  datatype Review = Review(user: nat, product: nat, contents: string, rating: int)

  /** The thirteen order states, in the order of their numeric codes 1..13. */
  datatype OrderStatus =
    | Preparing | OnSale | Ordered | Canceled | Paid | Shipped | Delivered
    | Completed | ReturnRequested | Returned | ExchangeRequested | Exchanged | Refunded
  {
    /** The numeric value stored in the `status` column. */
    function Code(): (c: int)
      ensures 1 <= c <= 13
    {
      match this
      case Preparing => 1
      case OnSale => 2
      case Ordered => 3
      case Canceled => 4
      case Paid => 5
      case Shipped => 6
      case Delivered => 7
      case Completed => 8
      case ReturnRequested => 9
      case Returned => 10
      case ExchangeRequested => 11
      case Exchanged => 12
      case Refunded => 13
    }
  }

  /** Status code 1, the one the seller statistics count as sold, is PREPARING and nothing else. */
  lemma OnlyPreparingHasCodeOne(s: OrderStatus)
    ensures s.Code() == 1 <==> s == Preparing
  {
  }

  datatype Order = Order(user: nat, product: nat, status: OrderStatus)

  datatype Db = Db(
    users: Table<User>,
    categories: Table<Category>,
    products: Table<Product>,
    images: Table<ProductImage>,
    likes: Table<Like>,
    follows: Table<Follow>,
    reviews: Table<Review>,
    orders: Table<Order>)

  /** Every table has unique, increasing primary keys. */
  predicate Consistent(db: Db) {
    && Valid(db.users)
    && Valid(db.categories)
    && Valid(db.products)
    && Valid(db.images)
    && Valid(db.likes)
    && Valid(db.follows)
    && Valid(db.reviews)
    && Valid(db.orders)
  }

  /** A service call that may write: the value and the database after it, or what it threw. */
  type Mutation<T> = Result<(T, Db), Exception>

  /** A service call that only reads. */
  type Query<T> = Result<T, Exception>
}

=== FILE: exceptions.dfy ===
/**
 The exceptions the services throw and the global exception filter that turns
 every one of them into the error response `{ code, message }` with an HTTP status
 (src/common/http-exception.filter.ts).
 */
module Exceptions {
  import opened Wrappers

  /** The application's error codes, kept symbolic: their string values are defined outside this model. */
  datatype ErrorCode = BadRequest | Unauthorized | Forbidden | NotFound | DuplicatedResource | InternalError

  /** The `code` field of an error response: an `ErrorCode`, or the literal the upload branch writes. */
  datatype ResponseCode = Named(code: ErrorCode) | Literal(text: string)

  /** What `HttpException.getResponse()` yields: a bare string, or an object whose `message` may be absent. */
  datatype ResponseBody = Text(text: string) | Object(message: Option<string>)

  /** Everything a handler can throw. `OtherError` covers TypeErrors, database driver errors and failed upstream calls. */
  datatype Exception =
    | HttpException(status: int, body: ResponseBody)
    | MulterError(multerCode: string)
    | OtherError

  /** The HTTP status and the JSON body `{ code, message }` the filter sends. */
  datatype ErrorResponse = ErrorResponse(status: int, code: ResponseCode, message: string)

  const DefaultMessage: string := "Internal Server Error"
  const FileTooLargeCode: string := "E413"
  const FileTooLargeMessage: string := "File size must not exceed 1MB."
  const LimitFileSize: string := "LIMIT_FILE_SIZE"

  // The framework's exception classes, as the services construct them: with a
  // string or with `{ message, code }`, `getResponse()` is an object carrying `message`.

  function BadRequestError(message: string): Exception { HttpException(400, Object(Some(message))) }
  function UnauthorizedError(message: string): Exception { HttpException(401, Object(Some(message))) }
  function ForbiddenError(message: string): Exception { HttpException(403, Object(Some(message))) }
  function NotFoundError(message: string): Exception { HttpException(404, Object(Some(message))) }
  function ConflictError(message: string): Exception { HttpException(409, Object(Some(message))) }
  function InternalServerError(message: string): Exception { HttpException(500, Object(Some(message))) }

  /** The status-to-code table of the filter; statuses it does not list fall back to INTERNAL_ERROR. */
  function CodeForStatus(status: int): ErrorCode {
    match status
    case 400 => BadRequest
    case 401 => Unauthorized
    case 403 => Forbidden
    case 404 => NotFound
    case 409 => DuplicatedResource
    case _ => InternalError
  }

  /** The statuses the filter's table lists. */
  predicate MappedStatus(status: int) {
    status in {400, 401, 403, 404, 409}
  }

  /** The status each listed code stands for, read off the table the other way round. */
  function StatusForCode(code: ErrorCode): int {
    match code
    case BadRequest => 400
    case Unauthorized => 401
    case Forbidden => 403
    case NotFound => 404
    case DuplicatedResource => 409
    case InternalError => 500
  }

  /** The message: a string body as it is, else the body's `message` when it is non-empty, else the default. */
  function MessageOf(body: ResponseBody): (m: string)
    ensures body.Text? ==> m == body.text
    ensures body.Object? && body.message.Some? && body.message.value != "" ==> m == body.message.value
    ensures body.Object? && (body.message.None? || body.message.value == "") ==> m == DefaultMessage
  {
    match body
    case Text(s) => s
    case Object(msg) => if msg.Some? && msg.value != "" then msg.value else DefaultMessage
  }

  /** `GlobalHttpExceptionFilter.catch`. */
  function Catch(e: Exception): (r: ErrorResponse)
    // a file over the upload limit: 400 with the literal code E413, whatever else holds
    ensures r.code == Literal(FileTooLargeCode) <==> e == MulterError(LimitFileSize)
    ensures e == MulterError(LimitFileSize) ==> r.status == 400 && r.message == FileTooLargeMessage
    // anything that is not an HttpException and not that upload error is a bare 500
    ensures !e.HttpException? && e != MulterError(LimitFileSize) ==>
              r == ErrorResponse(500, Named(InternalError), DefaultMessage)
    // an HttpException keeps its status; its code is INTERNAL_ERROR exactly for the unlisted statuses
    ensures e.HttpException? ==> r.status == e.status && r.code.Named? && r.message == MessageOf(e.body)
    ensures e.HttpException? ==> (r.code == Named(InternalError) <==> !MappedStatus(e.status))
    ensures e.HttpException? && MappedStatus(e.status) ==> StatusForCode(r.code.code) == e.status
  {
    if e.MulterError? && e.multerCode == LimitFileSize then
      ErrorResponse(400, Literal(FileTooLargeCode), FileTooLargeMessage)
    else if e.HttpException? then
      ErrorResponse(e.status, Named(CodeForStatus(e.status)), MessageOf(e.body))
    else
      ErrorResponse(500, Named(InternalError), DefaultMessage)
  }

  /** The five listed statuses map to their codes one for one, and back. */
  lemma StatusCodeRoundTrip(status: int)
    requires MappedStatus(status)
    ensures CodeForStatus(status) != InternalError
    ensures StatusForCode(CodeForStatus(status)) == status
  {
  }

  /** The exceptions the services throw reach the client with their own status, code and message. */
  lemma ServiceErrorsKeepTheirMessage(message: string)
    requires message != ""
    ensures Catch(BadRequestError(message)) == ErrorResponse(400, Named(BadRequest), message)
    ensures Catch(UnauthorizedError(message)) == ErrorResponse(401, Named(Unauthorized), message)
    ensures Catch(ForbiddenError(message)) == ErrorResponse(403, Named(Forbidden), message)
    ensures Catch(NotFoundError(message)) == ErrorResponse(404, Named(NotFound), message)
    ensures Catch(ConflictError(message)) == ErrorResponse(409, Named(DuplicatedResource), message)
    ensures Catch(InternalServerError(message)) == ErrorResponse(500, Named(InternalError), message)
  {
  }

  /** With an empty message the client sees the default text even on a 404. */
  lemma EmptyMessageFallsBack(status: int)
    ensures Catch(HttpException(status, Object(Some("")))).message == DefaultMessage
    ensures Catch(HttpException(status, Object(None))).message == DefaultMessage
  {
  }
}

=== FILE: follow.dfy ===
/** `FollowService` (src/follow/follow.service.ts). */
module Follows {
  import opened Wrappers
  import opened Tables
  import opened Exceptions
  import opened Entities

  /**
   Removes the (follower, followee) row if there is one and returns `followed = false`,
   otherwise creates it and returns `followed = true`.  Neither user is looked up,
   and following oneself is not refused.
   */
  function ToggleFollow(db: Db, followerId: nat, followeeId: nat): (r: (bool, Db))
    ensures r.1 == db.(follows := r.1.follows)
    ensures r.0 <==> Follow(followerId, followeeId) !in Bag(db.follows)
    ensures Valid(db.follows) ==> Valid(r.1.follows)
    ensures Valid(db.follows) ==>
      Bag(r.1.follows) == if r.0 then Bag(db.follows) + multiset{Follow(followerId, followeeId)}
                          else Bag(db.follows) - multiset{Follow(followerId, followeeId)}
  {
    ToggleBag(db.follows, Follow(followerId, followeeId));
    var (follows, followed) := Toggle(db.follows, Follow(followerId, followeeId));
    (followed, db.(follows := follows))
  }

  /**
   Following oneself is carried out like any other toggle: the service never compares
   the follower with the followee, and the users table is left as it was.
   */
  lemma ToggleFollowChecksNothing(db: Db, userId: nat)
    requires Valid(db.follows)
    requires Follow(userId, userId) !in Bag(db.follows)
    ensures var (followed, db') := ToggleFollow(db, userId, userId);
      followed && Follow(userId, userId) in Bag(db'.follows) && db'.users == db.users
  {
  }

  /** Two toggles of the same pair restore the follow table's contents; other pairs are never touched. */
  lemma ToggleFollowTwice(db: Db, followerId: nat, followeeId: nat, other: Follow)
    requires Valid(db.follows) && Bag(db.follows)[Follow(followerId, followeeId)] <= 1
    requires other != Follow(followerId, followeeId)
    ensures var (first, db1) := ToggleFollow(db, followerId, followeeId);
      var (second, db2) := ToggleFollow(db1, followerId, followeeId);
      && Bag(db2.follows) == Bag(db.follows)
      && db2 == db.(follows := db2.follows)
      && second == !first
      && Bag(db1.follows)[other] == Bag(db.follows)[other]
  {
    var v := Follow(followerId, followeeId);
    var (first, db1) := ToggleFollow(db, followerId, followeeId);
    ToggleTwice(db.follows, v);
    assert db1.follows == Toggle(db.follows, v).0;
    if first {
      assert Bag(db1.follows) == Bag(db.follows) + multiset{v};
    } else {
      assert Bag(db1.follows) == Bag(db.follows) - multiset{v};
    }
  }

  /** One entry of the following list. */
  datatype Followee = Followee(id: nat, nickname: string, userImage: string)

  /** The condition `f.follower = :userId`. */
  function FollowerIs(userId: nat): Row<Follow> -> bool {
    (f: Row<Follow>) => f.data.follower == userId
  }

  /** The users row with key `id` and the given nickname and image exists. */
  predicate ShowsUser(db: Db, e: Followee) {
    exists row :: row in db.users.rows && row.id == e.id && row.data.nickname == e.nickname
      && row.data.userImage == e.userImage
  }

  /**
   `getFollowingList`: one entry per follow row whose follower is `userId`, carrying the
   followee's id, nickname and image.  A row whose followee has no users row joins to
   null, and reading its id throws.
   */
  function GetFollowingList(db: Db, userId: nat): (r: Query<seq<Followee>>)
    ensures var sel := Where(db.follows.rows, FollowerIs(userId));
      && (r.Err? <==> exists i :: 0 <= i < |sel| && !HasKey(db.users, sel[i].data.followee))
      && (r.Err? ==> r.error == OtherError)
      && (r.Ok? ==> |r.value| == |sel|)
      && (r.Ok? ==> forall i :: 0 <= i < |sel| ==> r.value[i].id == sel[i].data.followee && ShowsUser(db, r.value[i]))
  {
    Followees(db, Where(db.follows.rows, FollowerIs(userId)))
  }

  function Followees(db: Db, follows: seq<Row<Follow>>): (r: Query<seq<Followee>>)
    ensures r.Err? <==> exists i :: 0 <= i < |follows| && !HasKey(db.users, follows[i].data.followee)
    ensures r.Err? ==> r.error == OtherError
    ensures r.Ok? ==> |r.value| == |follows|
    ensures r.Ok? ==> forall i :: 0 <= i < |follows| ==>
      r.value[i].id == follows[i].data.followee && ShowsUser(db, r.value[i])
  {
    if |follows| == 0 then Ok([])
    else
      match Get(db.users, follows[0].data.followee)
      case None => Err(OtherError)
      case Some(u) =>
        var head := Followee(u.id, u.data.nickname, u.data.userImage);
        assert ShowsUser(db, head);
        assert forall i :: 1 <= i < |follows| ==> follows[i] == follows[1..][i - 1];
        match Followees(db, follows[1..])
        case Err(e) =>
          assert exists i :: 1 <= i < |follows| && !HasKey(db.users, follows[i].data.followee);
          Err(e)
        case Ok(rest) =>
          Ok([head] + rest)
  }
}

=== FILE: guard.dfy ===
/**
 `JwtAuthGuard.canActivate` (src/auth/guards/jwt-auth.guard.ts).  Signature
 checking is the parameter `verify`: the user id a token's `data` claim carries when
 the token verifies, or nothing when verification throws.
 */
module Guard {
  import opened Wrappers
  import opened Tables
  import opened Exceptions
  import opened Entities

  const TokenRequired: string := "Access token required"
  const WrongTokenType: string := "Invalid access token type"
  const InvalidToken: string := "Invalid token"
  const BearerPrefix: string := "Bearer "

  predicate HasBearerPrefix(header: string) {
    |header| >= |BearerPrefix| && header[..|BearerPrefix|] == BearerPrefix
  }

  /**
   The user a request acts as, or why it is refused.  An empty header counts as
   missing.  Every failure after the prefix check, including a verified token whose
   user no longer exists, is reported as an invalid token.
   */
  function CanActivate(db: Db, header: Option<string>, verify: string -> Option<nat>): (r: Query<Row<User>>)
    ensures header.None? || header == Some("") ==> r == Err(UnauthorizedError(TokenRequired))
    ensures header.Some? && header.value != "" && !HasBearerPrefix(header.value) ==> r == Err(UnauthorizedError(WrongTokenType))
    ensures header.Some? && HasBearerPrefix(header.value) ==> var subject := verify(header.value[7..]);
      && (r.Ok? <==> subject.Some? && HasKey(db.users, subject.value))
      && (r.Err? ==> r.error == UnauthorizedError(InvalidToken))
    ensures r.Ok? ==> header.Some? && HasBearerPrefix(header.value)
    ensures r.Ok? ==> verify(header.value[7..]) == Some(r.value.id) && r.value in db.users.rows
  {
    if header.None? || header.value == "" then Err(UnauthorizedError(TokenRequired))
    else if !HasBearerPrefix(header.value) then Err(UnauthorizedError(WrongTokenType))
    else
      match verify(header.value[|BearerPrefix|..])
      case None => Err(UnauthorizedError(InvalidToken))
      case Some(id) =>
        match Get(db.users, id)
        case None => Err(UnauthorizedError(InvalidToken))
        case Some(user) => Ok(user)
  }

  /** Every refusal reaches the client as 401 UNAUTHORIZED with the guard's message. */
  lemma RefusalsAre401(db: Db, header: Option<string>, verify: string -> Option<nat>)
    ensures var r := CanActivate(db, header, verify);
      r.Err? ==> (Catch(r.error).status == 401 && Catch(r.error).code == Named(Unauthorized)
                  && Catch(r.error).message in {TokenRequired, WrongTokenType, InvalidToken})
  {
  }

  /** The token checked is what follows the prefix: a header built from a token gives that token back. */
  lemma TokenFollowsPrefix(token: string)
    ensures HasBearerPrefix(BearerPrefix + token) && (BearerPrefix + token)[7..] == token
  {
    assert (BearerPrefix + token)[..|BearerPrefix|] == BearerPrefix;
  }

  /**
   A token issued for an existing user admits the request as that user, whenever
   verification recognises the tokens `sign` issues.
   */
  lemma IssuedTokenAdmits(db: Db, id: nat, sign: nat -> string, verify: string -> Option<nat>)
    requires verify(sign(id)) == Some(id)
    requires Valid(db.users) && HasKey(db.users, id)
    ensures var r := CanActivate(db, Some(BearerPrefix + sign(id)), verify);
      r.Ok? && r.value.id == id && r.value in db.users.rows
  {
    TokenFollowsPrefix(sign(id));
  }
}

=== FILE: likes.dfy ===
/** `LikesService.toggleLike` (src/likes/likes.service.ts). */
module Likes {
  import opened Wrappers
  import opened Tables
  import opened Exceptions
  import opened Entities

  /** Which way the toggle went. */
  datatype LikeResult = Liked | Unliked

  const UserOrProductNotFound: string := "유저 또는 상품을 찾을 수 없습니다."

  /**
   Both the user and the product must exist; then the like row for the pair is
   removed if one exists (UNLIKED) and created otherwise (LIKED).
   */
  function ToggleLike(db: Db, userId: nat, productId: nat): (r: Mutation<LikeResult>)
    ensures r.Err? <==> !HasKey(db.users, userId) || !HasKey(db.products, productId)
    ensures r.Err? ==> r.error == NotFoundError(UserOrProductNotFound)
    ensures r.Ok? ==> r.value.1 == db.(likes := r.value.1.likes)
    ensures r.Ok? ==> (r.value.0 == Unliked <==> Like(userId, productId) in Bag(db.likes))
    ensures r.Ok? && Valid(db.likes) ==> Valid(r.value.1.likes)
  {
    if Get(db.users, userId).None? || Get(db.products, productId).None? then
      Err(NotFoundError(UserOrProductNotFound))
    else
      var (likes, created) := Toggle(db.likes, Like(userId, productId));
      Ok((if created then Liked else Unliked, db.(likes := likes)))
  }

  /** An existing like is removed: exactly one copy of the pair leaves the like table. */
  lemma ToggleLikeRemoves(db: Db, userId: nat, productId: nat)
    requires Consistent(db)
    requires HasKey(db.users, userId) && HasKey(db.products, productId)
    requires Like(userId, productId) in Bag(db.likes)
    ensures var r := ToggleLike(db, userId, productId);
      && r == Ok((Unliked, r.value.1))
      && Bag(r.value.1.likes) == Bag(db.likes) - multiset{Like(userId, productId)}
  {
    ToggleBag(db.likes, Like(userId, productId));
  }

  /** A missing like is created: exactly one row for the pair joins the like table. */
  lemma ToggleLikeCreates(db: Db, userId: nat, productId: nat)
    requires Consistent(db)
    requires HasKey(db.users, userId) && HasKey(db.products, productId)
    requires Like(userId, productId) !in Bag(db.likes)
    ensures var r := ToggleLike(db, userId, productId);
      && r == Ok((Liked, r.value.1))
      && Bag(r.value.1.likes) == Bag(db.likes) + multiset{Like(userId, productId)}
      && Bag(r.value.1.likes)[Like(userId, productId)] == 1
  {
    ToggleBag(db.likes, Like(userId, productId));
  }

  /** Likes of every other (user, product) pair are untouched. */
  lemma ToggleLikeFrame(db: Db, userId: nat, productId: nat, other: Like)
    requires Consistent(db)
    requires other != Like(userId, productId)
    requires ToggleLike(db, userId, productId).Ok?
    ensures Bag(ToggleLike(db, userId, productId).value.1.likes)[other] == Bag(db.likes)[other]
  {
    ToggleBag(db.likes, Like(userId, productId));
  }

  /** With at most one like per pair before a toggle, there is at most one after it. */
  lemma ToggleLikeKeepsPairsUnique(db: Db, userId: nat, productId: nat)
    requires Consistent(db) && NoDuplicates(db.likes)
    requires ToggleLike(db, userId, productId).Ok?
    ensures NoDuplicates(ToggleLike(db, userId, productId).value.1.likes)
  {
    ToggleKeepsNoDuplicates(db.likes, Like(userId, productId));
  }

  /** Two successful toggles of the same pair restore the like table's contents and alternate the result. */
  lemma ToggleLikeTwice(db: Db, userId: nat, productId: nat)
    requires Consistent(db) && Bag(db.likes)[Like(userId, productId)] <= 1
    requires ToggleLike(db, userId, productId).Ok?
    ensures var (first, db1) := ToggleLike(db, userId, productId).value;
      var r2 := ToggleLike(db1, userId, productId);
      && r2.Ok?
      && Bag(r2.value.1.likes) == Bag(db.likes)
      && r2.value.1 == db.(likes := r2.value.1.likes)
      && r2.value.0 != first
  {
    ToggleTwice(db.likes, Like(userId, productId));
  }

  /** The client sees a missing user or product as 404 NOT_FOUND. */
  lemma ToggleLikeMissingIs404(db: Db, userId: nat, productId: nat)
    requires !HasKey(db.products, productId)
    ensures var r := ToggleLike(db, userId, productId);
      r.Err? && Catch(r.error) == ErrorResponse(404, Named(NotFound), UserOrProductNotFound)
  {
  }
}

=== FILE: products.dfy ===
/** `ProductsService` (src/products/products.service.ts). */
module Products {
  import opened Wrappers
  import opened Tables
  import opened Exceptions
  import opened Entities
  import opened Strings
  import opened Sorting
  import Likes

  const CreateFailed: string := "상품 생성 실패"
  const ProductNotFound: string := "상품을 찾을 수 없습니다"
  const NotProductSeller: string := "상품을 삭제할 권한이 없습니다"
  const PostSuccess: string := "POST_SUCCESS"
  const DeleteSuccess: string := "PRODUCT_DELETE_SUCCESS"

  // ---------------------------------------------------------------------------
  // Images

  /** The condition that an image row belongs to product `pid`. */
  function ImageOf(pid: nat): ProductImage -> bool {
    (img: ProductImage) => img.product == pid
  }

  function Urls(rows: seq<Row<ProductImage>>): (r: seq<string>)
    ensures |r| == |rows| && forall i :: 0 <= i < |rows| ==> r[i] == rows[i].data.url
  {
    seq(|rows|, i requires 0 <= i < |rows| => rows[i].data.url)
  }

  /** The image URLs of a product, in table order (`leftJoinAndSelect('product.images')`). */
  function ImagesOf(images: Table<ProductImage>, pid: nat): seq<string> {
    Urls(Where(images.rows, OnData(ImageOf(pid))))
  }

  /** One image row per URL, all for product `pid`. */
  function ImageRows(pid: nat, urls: seq<string>): (r: seq<ProductImage>)
    ensures |r| == |urls| && forall i :: 0 <= i < |urls| ==> r[i] == ProductImage(pid, urls[i])
  {
    seq(|urls|, i requires 0 <= i < |urls| => ProductImage(pid, urls[i]))
  }

  /** The rows `vs` receive when saved under consecutive keys starting at `k`. */
  function Numbered(k: nat, vs: seq<ProductImage>): seq<Row<ProductImage>> {
    seq(|vs|, i requires 0 <= i < |vs| => Row(k + i, vs[i]))
  }

  /** Saves the image rows one after another; each gets a key no earlier row had. */
  function InsertAll(t: Table<ProductImage>, vs: seq<ProductImage>): (r: Table<ProductImage>)
    ensures r.rows == t.rows + Numbered(t.nextId, vs) && r.nextId == t.nextId + |vs|
    ensures Valid(t) ==> Valid(r)
    decreases |vs|
  {
    if |vs| == 0 then
      assert t.rows + Numbered(t.nextId, vs) == t.rows;
      t
    else
      var (t1, _) := Insert(t, vs[0]);
      var r := InsertAll(t1, vs[1..]);
      NumberedCons(t.nextId, vs);
      assert r.rows == t.rows + ([Row(t.nextId, vs[0])] + Numbered(t.nextId + 1, vs[1..]));
      r
  }

  lemma NumberedCons(k: nat, vs: seq<ProductImage>)
    requires |vs| > 0
    ensures Numbered(k, vs) == [Row(k, vs[0])] + Numbered(k + 1, vs[1..])
  {
    var l, r := Numbered(k, vs), [Row(k, vs[0])] + Numbered(k + 1, vs[1..]);
    assert |l| == |r|;
    forall i | 0 <= i < |l| ensures l[i] == r[i] {
      if i > 0 {
        assert r[i] == Numbered(k + 1, vs[1..])[i - 1];
      }
    }
  }

  // ---------------------------------------------------------------------------
  // create

  /** The body of the create request (`CreateProductDto`); its decorators are not applied by the application. */
  datatype ProductForm = ProductForm(
    name: string,
    description: Option<string>,
    price: int,
    location: string,
    latitude: int,
    longitude: int,
    status: int,
    categoryId: nat,
    imageUrl: Option<seq<string>>)

  /**
   Which statement of the transaction the database rejects, if any (a constraint
   the model does not represent, a lost connection).
   */
  datatype Fault = NoFault | ProductInsertFails | ImageSaveFails

  /** The URLs the request asks to save: none when the list is absent or empty. */
  function RequestedUrls(form: ProductForm): seq<string> {
    if form.imageUrl.Some? then form.imageUrl.value else []
  }

  function ProductFrom(form: ProductForm, sellerId: nat, now: int): Product {
    Product(sellerId, form.name, form.description, form.price, form.location,
            form.latitude, form.longitude, form.status, form.categoryId, now)
  }

  /**
   `create`: inserts the product and then one image row per URL inside one
   transaction.  Any failure rolls the transaction back and is reported as 500
   with a fixed message; the image save is skipped when there are no URLs.
   */
  function Create(db: Db, sellerId: nat, form: ProductForm, now: int, fault: Fault): (r: Mutation<string>)
    ensures r.Err? <==> fault == ProductInsertFails || (fault == ImageSaveFails && |RequestedUrls(form)| > 0)
    ensures r.Err? ==> r.error == InternalServerError(CreateFailed)
    ensures r.Ok? ==> var db' := r.value.1;
      && r.value.0 == PostSuccess
      && db' == db.(products := db'.products, images := db'.images)
      && |db'.products.rows| == |db.products.rows| + 1
      && db'.products.rows[..|db.products.rows|] == db.products.rows
      && db'.products.rows[|db.products.rows|].data == ProductFrom(form, sellerId, now)
      && |db'.images.rows| == |db.images.rows| + |RequestedUrls(form)|
      && db'.images.rows[..|db.images.rows|] == db.images.rows
      && (forall i :: 0 <= i < |RequestedUrls(form)| ==>
            db'.images.rows[|db.images.rows| + i].data
              == ProductImage(db'.products.rows[|db.products.rows|].id, RequestedUrls(form)[i]))
    ensures r.Ok? && Consistent(db) ==> Consistent(r.value.1) && !HasKey(db.products, r.value.1.products.rows[|db.products.rows|].id)
    ensures r.Ok? ==> r.value.1.products.rows[|db.products.rows|].id == db.products.nextId
  {
    if fault == ProductInsertFails then Err(InternalServerError(CreateFailed))
    else
      var (products, row) := Insert(db.products, ProductFrom(form, sellerId, now));
      var urls := RequestedUrls(form);
      if |urls| > 0 && fault == ImageSaveFails then Err(InternalServerError(CreateFailed))
      else
        var images := if |urls| > 0 then InsertAll(db.images, ImageRows(row.id, urls)) else db.images;
        Ok((PostSuccess, db.(products := products, images := images)))
  }

  /** Image rows for `pid` appended after rows of other products are exactly the images of `pid`. */
  lemma AppendedImagesOf(prior: seq<Row<ProductImage>>, added: seq<Row<ProductImage>>, pid: nat, urls: seq<string>)
    requires forall i :: 0 <= i < |prior| ==> prior[i].data.product != pid
    requires |added| == |urls| && forall i :: 0 <= i < |urls| ==> added[i].data == ProductImage(pid, urls[i])
    ensures Urls(Where(prior + added, OnData(ImageOf(pid)))) == urls
  {
    var p := OnData(ImageOf(pid));
    WhereConcat(prior, added, p);
    WhereNone(prior, p);
    WhereKeepsAll(added, p);
    assert Where(prior + added, p) == added;
  }

  /**
   The images of a newly created product are exactly the requested URLs, in
   request order, provided no image row pointed at the unused key before.
   */
  lemma CreatedProductHasRequestedImages(db: Db, sellerId: nat, form: ProductForm, now: int)
    requires Consistent(db)
    requires forall i :: 0 <= i < |db.images.rows| ==> db.images.rows[i].data.product < db.products.nextId
    requires Create(db, sellerId, form, now, NoFault).Ok?
    ensures var db' := Create(db, sellerId, form, now, NoFault).value.1;
      ImagesOf(db'.images, db'.products.rows[|db.products.rows|].id) == RequestedUrls(form)
  {
    var db' := Create(db, sellerId, form, now, NoFault).value.1;
    var pid := db'.products.rows[|db.products.rows|].id;
    var prior := db.images.rows;
    var added := db'.images.rows[|prior|..];
    assert db'.images.rows == prior + added;
    forall i | 0 <= i < |RequestedUrls(form)| ensures added[i].data == ProductImage(pid, RequestedUrls(form)[i]) {
      assert added[i] == db'.images.rows[|prior| + i];
    }
    AppendedImagesOf(prior, added, pid, RequestedUrls(form));
  }

  // ---------------------------------------------------------------------------
  // findAll

  /** A list item: the selected product columns, its category (left join) and its image URLs. */
  datatype ProductCard = ProductCard(
    id: nat,
    name: string,
    price: int,
    createdAt: int,
    location: string,
    latitude: int,
    longitude: int,
    category: Option<Row<Category>>,
    images: seq<string>)

  function CardOf(db: Db, row: Row<Product>): (c: ProductCard)
    ensures c.id == row.id && c.price == row.data.price && c.createdAt == row.data.createdAt
    ensures c.category == Get(db.categories, row.data.category)
    ensures c.images == ImagesOf(db.images, row.id)
  {
    ProductCard(row.id, row.data.name, row.data.price, row.data.createdAt, row.data.location,
                row.data.latitude, row.data.longitude, Get(db.categories, row.data.category),
                ImagesOf(db.images, row.id))
  }

  function Cards(db: Db, rows: seq<Row<Product>>): (r: seq<ProductCard>)
    ensures |r| == |rows| && forall i :: 0 <= i < |rows| ==> r[i] == CardOf(db, rows[i])
  {
    seq(|rows|, i requires 0 <= i < |rows| => CardOf(db, rows[i]))
  }

  /**
   The condition `category.id = :category`.  The left-joined category must exist,
   and MySQL compares the integer key with the numeric value of the string.
   */
  function InCategory(categories: Table<Category>, category: string): Row<Product> -> bool {
    (p: Row<Product>) => HasKey(categories, p.data.category) && p.data.category == LeadingNumber(category)
  }

  /** The products the filter keeps: all of them unless a non-empty category is given. */
  function Listed(db: Db, category: Option<string>): seq<Row<Product>> {
    if category.Some? && category.value != "" then Where(db.products.rows, InCategory(db.categories, category.value))
    else db.products.rows
  }

  function ByPrice(c: ProductCard): int { c.price }
  function ByCreation(c: ProductCard): int { c.createdAt }

  /** The sort key: price for `pHigh` and `pLow`, creation time otherwise. */
  function SortKey(sort: Option<string>): ProductCard -> int {
    if sort == Some("pHigh") || sort == Some("pLow") then ByPrice else ByCreation
  }

  /** Every order is descending except `pLow`. */
  function SortDescending(sort: Option<string>): bool {
    sort != Some("pLow")
  }

  /**
   `findAll`: the cards of the listed products, ordered by price descending
   (`pHigh`), price ascending (`pLow`) or newest first (anything else).
   */
  function FindAll(db: Db, sort: Option<string>, category: Option<string>): (r: seq<ProductCard>)
    ensures multiset(r) == multiset(Cards(db, Listed(db, category)))
    ensures sort == Some("pHigh") ==> forall i, j :: 0 <= i < j < |r| ==> r[i].price >= r[j].price
    ensures sort == Some("pLow") ==> forall i, j :: 0 <= i < j < |r| ==> r[i].price <= r[j].price
    ensures sort != Some("pHigh") && sort != Some("pLow") ==>
      forall i, j :: 0 <= i < j < |r| ==> r[i].createdAt >= r[j].createdAt
  {
    SortBy(Cards(db, Listed(db, category)), SortKey(sort), SortDescending(sort))
  }

  /** A rearrangement of the cards of some rows holds exactly the cards of those rows. */
  lemma InCards(db: Db, rows: seq<Row<Product>>, r: seq<ProductCard>, x: ProductCard)
    requires multiset(r) == multiset(Cards(db, rows))
    ensures x in r <==> exists m :: 0 <= m < |rows| && x == CardOf(db, rows[m])
  {
    var cards := Cards(db, rows);
    assert x in r <==> x in multiset(r);
    assert x in cards <==> x in multiset(cards);
  }

  /** Without a category every product is listed, each exactly once per row. */
  lemma FindAllWithoutCategoryListsAll(db: Db, sort: Option<string>, category: Option<string>)
    requires category.None? || category == Some("")
    ensures |FindAll(db, sort, category)| == |db.products.rows|
    ensures forall i :: 0 <= i < |db.products.rows| ==> CardOf(db, db.products.rows[i]) in FindAll(db, sort, category)
  {
    var r := FindAll(db, sort, category);
    var cards := Cards(db, db.products.rows);
    assert |r| == |multiset(r)| == |multiset(cards)| == |cards|;
    forall i | 0 <= i < |db.products.rows| ensures CardOf(db, db.products.rows[i]) in r {
      InCards(db, db.products.rows, r, CardOf(db, db.products.rows[i]));
    }
  }

  /** A non-empty category parameter selects the products of the existing category its leading number names. */
  lemma CategorySelects(db: Db, s: string, n: nat)
    requires s != "" && LeadingNumber(s) == n
    ensures forall row :: row in Listed(db, Some(s)) <==>
      row in db.products.rows && row.data.category == n && HasKey(db.categories, n)
  {
    var p := InCategory(db.categories, s);
    WhereSound(db.products.rows, p);
    WhereComplete(db.products.rows, p);
    forall row | row in db.products.rows && row.data.category == n && HasKey(db.categories, n)
      ensures row in Listed(db, Some(s))
    {
      var i :| 0 <= i < |db.products.rows| && db.products.rows[i] == row;
    }
  }

  /** A product of category `n`, when that category exists. */
  predicate OfCategory(db: Db, row: Row<Product>, n: nat) {
    row.data.category == n && HasKey(db.categories, n)
  }

  /** Every card of a rearranged category listing is the card of a product of the category named. */
  lemma CategoryCardSound(db: Db, s: string, n: nat, r: seq<ProductCard>, x: ProductCard)
    requires s != "" && LeadingNumber(s) == n
    requires multiset(r) == multiset(Cards(db, Listed(db, Some(s))))
    requires x in r
    ensures exists i :: 0 <= i < |db.products.rows| && OfCategory(db, db.products.rows[i], n) && x == CardOf(db, db.products.rows[i])
  {
    var listed := Listed(db, Some(s));
    InCards(db, listed, r, x);
    var m :| 0 <= m < |listed| && x == CardOf(db, listed[m]);
    CategorySelects(db, s, n);
    assert listed[m] in listed;
    var i :| 0 <= i < |db.products.rows| && db.products.rows[i] == listed[m];
    assert OfCategory(db, db.products.rows[i], n);
  }

  /** The card of every product of the category named is in a rearranged category listing. */
  lemma CategoryCardComplete(db: Db, s: string, n: nat, r: seq<ProductCard>, i: nat)
    requires s != "" && LeadingNumber(s) == n
    requires multiset(r) == multiset(Cards(db, Listed(db, Some(s))))
    requires i < |db.products.rows| && OfCategory(db, db.products.rows[i], n)
    ensures CardOf(db, db.products.rows[i]) in r
  {
    var listed := Listed(db, Some(s));
    CategorySelects(db, s, n);
    assert db.products.rows[i] in listed;
    var m :| 0 <= m < |listed| && listed[m] == db.products.rows[i];
    InCards(db, listed, r, CardOf(db, db.products.rows[i]));
  }

  /** A rearranged category listing holds exactly the cards of the products of the existing category named. */
  lemma CategoryCards(db: Db, s: string, n: nat, r: seq<ProductCard>)
    requires s != "" && LeadingNumber(s) == n
    requires multiset(r) == multiset(Cards(db, Listed(db, Some(s))))
    ensures forall x :: x in r <==>
      exists i :: 0 <= i < |db.products.rows| && OfCategory(db, db.products.rows[i], n) && x == CardOf(db, db.products.rows[i])
  {
    forall x ensures x in r <==>
      exists i :: 0 <= i < |db.products.rows| && OfCategory(db, db.products.rows[i], n) && x == CardOf(db, db.products.rows[i])
    {
      if x in r {
        CategoryCardSound(db, s, n, r, x);
      }
      if exists i :: 0 <= i < |db.products.rows| && OfCategory(db, db.products.rows[i], n) && x == CardOf(db, db.products.rows[i]) {
        var i :| 0 <= i < |db.products.rows| && OfCategory(db, db.products.rows[i], n) && x == CardOf(db, db.products.rows[i]);
        CategoryCardComplete(db, s, n, r, i);
      }
    }
  }

  /**
   With a category given as the decimal form of a key, the listing holds exactly the
   cards of the products of that existing category.
   */
  lemma FindAllByCategoryKey(db: Db, sort: Option<string>, c: nat)
    ensures forall x :: x in FindAll(db, sort, Some(NatToString(c))) <==>
      exists i :: 0 <= i < |db.products.rows| && OfCategory(db, db.products.rows[i], c) && x == CardOf(db, db.products.rows[i])
  {
    LeadingNumberOfNatToString(c);
    CategoryCards(db, NatToString(c), c, FindAll(db, sort, Some(NatToString(c))));
  }

  // ---------------------------------------------------------------------------
  // findOne

  /** The product columns the detail page selects, with its category and image URLs. */
  datatype ProductDetail = ProductDetail(
    id: nat,
    name: string,
    description: Option<string>,
    price: int,
    location: string,
    latitude: int,
    longitude: int,
    status: int,
    category: Option<Row<Category>>,
    images: seq<string>)

  /** The seller box of the detail page. */
  datatype Store = Store(id: nat, nickname: string, userImage: string, productCount: nat, followerCount: nat)

  /** A review as the detail page lists it: its text and rating. */
  datatype ProductReview = ProductReview(contents: string, rating: int)

  datatype ProductPage = ProductPage(product: ProductDetail, store: Store, reviews: seq<ProductReview>, isLiked: bool)

  /** The condition `review.product = pid`. */
  function ReviewOf(pid: nat): Review -> bool {
    (r: Review) => r.product == pid
  }

  function ReviewsOf(rows: seq<Row<Review>>): (r: seq<ProductReview>)
    ensures |r| == |rows|
    ensures forall i :: 0 <= i < |rows| ==> r[i] == ProductReview(rows[i].data.contents, rows[i].data.rating)
  {
    seq(|rows|, i requires 0 <= i < |rows| => ProductReview(rows[i].data.contents, rows[i].data.rating))
  }

  /** The condition `followee = u`. */
  function FolloweeIs(u: nat): Follow -> bool {
    (f: Follow) => f.followee == u
  }

  /** The condition `seller = u`. */
  function SellerIs(u: nat): Product -> bool {
    (p: Product) => p.seller == u
  }

  /**
   `findOne`: 404 for an unknown product; a product whose seller row is gone joins a
   null seller, and reading its id throws.  Otherwise the page carries the seller's
   product and follower counts, the product's reviews, and whether the caller likes it.
   */
  function FindOne(db: Db, productId: nat, userId: nat): (r: Query<ProductPage>)
    ensures !HasKey(db.products, productId) <==> r == Err(NotFoundError(ProductNotFound))
    ensures HasKey(db.products, productId) ==>
      (r.Err? <==> !HasKey(db.users, Get(db.products, productId).value.data.seller))
    ensures HasKey(db.products, productId) && r.Err? ==> r.error == OtherError
    ensures r.Ok? ==> var p := Get(db.products, productId).value; var seller := Get(db.users, p.data.seller).value;
      && r.value.product.id == productId && r.value.product.price == p.data.price
      && r.value.product.name == p.data.name && r.value.product.status == p.data.status
      && r.value.product.images == ImagesOf(db.images, productId)
      && r.value.store.id == p.data.seller
      && r.value.store.nickname == seller.data.nickname && r.value.store.userImage == seller.data.userImage
      && r.value.store.productCount == Count(db.products.rows, OnData(SellerIs(p.data.seller)))
      && r.value.store.followerCount == Count(db.follows.rows, OnData(FolloweeIs(p.data.seller)))
      && r.value.reviews == ReviewsOf(Where(db.reviews.rows, OnData(ReviewOf(productId))))
    ensures r.Ok? ==> (r.value.isLiked <==> Like(userId, productId) in Bag(db.likes))
  {
    match Get(db.products, productId)
    case None => Err(NotFoundError(ProductNotFound))
    case Some(p) =>
      match Get(db.users, p.data.seller)
      case None => Err(OtherError)
      case Some(seller) =>
        InBag(db.likes, Like(userId, productId));
        var isLiked := First(db.likes.rows, DataIs(Like(userId, productId))).Some?;
        Ok(ProductPage(
          ProductDetail(p.id, p.data.name, p.data.description, p.data.price, p.data.location,
                        p.data.latitude, p.data.longitude, p.data.status,
                        Get(db.categories, p.data.category), ImagesOf(db.images, p.id)),
          Store(seller.id, seller.data.nickname, seller.data.userImage,
                Count(db.products.rows, OnData(SellerIs(p.data.seller))),
                Count(db.follows.rows, OnData(FolloweeIs(p.data.seller)))),
          ReviewsOf(Where(db.reviews.rows, OnData(ReviewOf(productId)))),
          isLiked))
  }

  /** The like flag of the detail page follows the like toggle. */
  lemma IsLikedFollowsToggle(db: Db, userId: nat, productId: nat)
    requires Consistent(db) && Bag(db.likes)[Like(userId, productId)] <= 1
    requires Likes.ToggleLike(db, userId, productId).Ok?
    requires FindOne(db, productId, userId).Ok?
    ensures var (outcome, db') := Likes.ToggleLike(db, userId, productId).value;
      FindOne(db', productId, userId).Ok?
      && (FindOne(db', productId, userId).value.isLiked <==> outcome == Likes.Liked)
  {
    ToggleBag(db.likes, Like(userId, productId));
  }

  // ---------------------------------------------------------------------------
  // remove

  /**
   `remove`: 404 for an unknown product, a thrown error when its seller row is gone,
   403 when the caller is not the seller; otherwise the product row is deleted.
   */
  function Remove(db: Db, productId: nat, userId: nat): (r: Mutation<string>)
    ensures !HasKey(db.products, productId) <==> r == Err(NotFoundError(ProductNotFound))
    ensures HasKey(db.products, productId) ==> var seller := Get(db.products, productId).value.data.seller;
      && (!HasKey(db.users, seller) ==> r == Err(OtherError))
      && (HasKey(db.users, seller) ==> (r == Err(ForbiddenError(NotProductSeller)) <==> seller != userId))
    ensures r.Ok? <==>
      && HasKey(db.products, productId)
      && HasKey(db.users, Get(db.products, productId).value.data.seller)
      && Get(db.products, productId).value.data.seller == userId
    ensures r.Ok? ==> var db' := r.value.1;
      && r.value.0 == DeleteSuccess
      && db' == db.(products := db'.products)
      && !HasKey(db'.products, productId)
      && (forall i :: 0 <= i < |db.products.rows| && db.products.rows[i].id != productId ==> db.products.rows[i] in db'.products.rows)
      && (forall i :: 0 <= i < |db'.products.rows| ==> db'.products.rows[i] in db.products.rows)
      && (Valid(db.products) ==> Valid(db'.products))
  {
    match Get(db.products, productId)
    case None => Err(NotFoundError(ProductNotFound))
    case Some(p) =>
      if !HasKey(db.users, p.data.seller) then Err(OtherError)
      else if p.data.seller != userId then Err(ForbiddenError(NotProductSeller))
      else Ok((DeleteSuccess, db.(products := Delete(db.products, productId))))
  }

  /** After a successful remove the product page is 404, and every other product is still found. */
  lemma RemovedProductIsGone(db: Db, productId: nat, userId: nat, other: nat, caller: nat)
    requires Valid(db.products)
    requires Remove(db, productId, userId).Ok?
    requires other != productId
    ensures var db' := Remove(db, productId, userId).value.1;
      && FindOne(db', productId, caller) == Err(NotFoundError(ProductNotFound))
      && Get(db'.products, other) == Get(db.products, other)
  {
    var db' := Remove(db, productId, userId).value.1;
    match Get(db.products, other)
    case None =>
      forall k | 0 <= k < |db'.products.rows| ensures db'.products.rows[k].id != other {
        assert db'.products.rows[k] in db.products.rows;
      }
    case Some(row) =>
      var i :| 0 <= i < |db.products.rows| && db.products.rows[i] == row;
      assert row in db'.products.rows;
      var k :| 0 <= k < |db'.products.rows| && db'.products.rows[k] == row;
      GetRow(db'.products, k);
  }
}

=== FILE: review.dfy ===
/** `ReviewService` (src/review/review.service.ts). */
module Reviews {
  import opened Wrappers
  import opened Tables
  import opened Exceptions
  import opened Entities
  import opened Users

  const AlreadyReviewed: string := "리뷰는 한 번만 등록할 수 있습니다."
  const ProductMissing: string := "해당 상품이 존재하지 않습니다."
  const UserMissing: string := "해당 유저가 존재하지 않습니다."
  const ReviewMissing: string := "리뷰가 존재하지 않습니다."
  const NotReviewAuthor: string := "리뷰를 삭제할 권한이 없습니다."
  const NothingToDelete: string := "삭제할 리뷰가 없습니다."

  /** The condition `user.id = u AND product.id = p`. */
  function ByUserOn(u: nat, p: nat): Review -> bool {
    (r: Review) => r.user == u && r.product == p
  }

  /**
   `createReview`: 409 when the user already reviewed the product, then 404 when the
   product does not exist; otherwise the review is saved and returned.  The author is
   not looked up, and the rating is stored as given.
   */
  function CreateReview(db: Db, userId: nat, productId: nat, contents: string, rating: int): (r: Mutation<Row<Review>>)
    ensures (exists i :: 0 <= i < |db.reviews.rows| && db.reviews.rows[i].data.user == userId
               && db.reviews.rows[i].data.product == productId)
      <==> r == Err(ConflictError(AlreadyReviewed))
    ensures r.Ok? <==>
      (forall i :: 0 <= i < |db.reviews.rows| ==> !(db.reviews.rows[i].data.user == userId && db.reviews.rows[i].data.product == productId))
      && HasKey(db.products, productId)
    ensures r.Err? && r.error != ConflictError(AlreadyReviewed) <==>
      (forall i :: 0 <= i < |db.reviews.rows| ==> !(db.reviews.rows[i].data.user == userId && db.reviews.rows[i].data.product == productId))
      && !HasKey(db.products, productId)
    ensures r.Err? && r.error != ConflictError(AlreadyReviewed) ==> r.error == NotFoundError(ProductMissing)
    ensures r.Ok? ==>
      && r.value.0.data == Review(userId, productId, contents, rating)
      && r.value.1 == db.(reviews := r.value.1.reviews)
      && r.value.1.reviews.rows == db.reviews.rows + [r.value.0]
      && (Valid(db.reviews) ==> Valid(r.value.1.reviews) && !HasKey(db.reviews, r.value.0.id))
  {
    if First(db.reviews.rows, OnData(ByUserOn(userId, productId))).Some? then
      Err(ConflictError(AlreadyReviewed))
    else if Get(db.products, productId).None? then
      Err(NotFoundError(ProductMissing))
    else
      var (reviews, row) := Insert(db.reviews, Review(userId, productId, contents, rating));
      Ok((row, db.(reviews := reviews)))
  }

  /** Once a user has reviewed a product, every further review of it by them is refused with 409. */
  lemma ReviewOnlyOnce(db: Db, userId: nat, productId: nat, contents: string, rating: int,
                       contents2: string, rating2: int)
    requires CreateReview(db, userId, productId, contents, rating).Ok?
    ensures var db' := CreateReview(db, userId, productId, contents, rating).value.1;
      CreateReview(db', userId, productId, contents2, rating2) == Err(ConflictError(AlreadyReviewed))
  {
    var db' := CreateReview(db, userId, productId, contents, rating).value.1;
    assert db'.reviews.rows[|db.reviews.rows|].data == Review(userId, productId, contents, rating);
  }

  lemma {:induction false} RatingSumAppend(rows: seq<Row<Review>>, x: Row<Review>)
    ensures RatingSum(rows + [x]) == RatingSum(rows) + x.data.rating
  {
    if |rows| == 0 {
      assert rows + [x] == [x];
      assert [x][1..] == [];
    } else {
      assert (rows + [x])[1..] == rows[1..] + [x];
      RatingSumAppend(rows[1..], x);
    }
  }

  /**
   A new review counts toward the statistics of the product's seller, and of no
   other user: one more review and its rating added to the rating total.
   */
  lemma CreateReviewMovesSellerStatistics(db: Db, userId: nat, productId: nat, contents: string, rating: int, u: nat)
    requires Consistent(db) && HasKey(db.users, u)
    requires CreateReview(db, userId, productId, contents, rating).Ok?
    ensures var (row, db') := CreateReview(db, userId, productId, contents, rating).value;
      var before := GetUserDetailById(db, u).value;
      var after := GetUserDetailById(db', u).value;
      var ofU := OwnedBy(db.products, productId, u);
      && after.reviewNum == before.reviewNum + (if ofU then 1 else 0)
      && RatingSum(SellerReviews(db', u)) == RatingSum(SellerReviews(db, u)) + (if ofU then rating else 0)
  {
    var (row, db') := CreateReview(db, userId, productId, contents, rating).value;
    var p := OnData(ReviewedFrom(db.products, u));
    WhereConcat(db.reviews.rows, [row], p);
    WhereSingleton(row, p);
    if OwnedBy(db.products, productId, u) {
      RatingSumAppend(SellerReviews(db, u), row);
    } else {
      assert SellerReviews(db, u) + [] == SellerReviews(db, u);
    }
  }

  /**
   `deleteReview`: 404 for an unknown review, 403 when the caller did not write it,
   otherwise the review is deleted.  Loading the review's author yields null when
   their row is gone, and reading its id then throws.
   */
  function DeleteReview(db: Db, userId: nat, reviewId: nat): (r: Mutation<()>)
    ensures !HasKey(db.reviews, reviewId) <==> r == Err(NotFoundError(ReviewMissing))
    ensures HasKey(db.reviews, reviewId) ==> var review := Get(db.reviews, reviewId).value.data;
      && (!HasKey(db.users, review.user) ==> r == Err(OtherError))
      && (HasKey(db.users, review.user) ==> (r == Err(ForbiddenError(NotReviewAuthor)) <==> review.user != userId))
    ensures r != Err(NotFoundError(NothingToDelete))
    ensures r.Ok? <==>
      && HasKey(db.reviews, reviewId)
      && HasKey(db.users, Get(db.reviews, reviewId).value.data.user)
      && Get(db.reviews, reviewId).value.data.user == userId
    ensures r.Ok? ==> var db' := r.value.1;
      && db' == db.(reviews := db'.reviews)
      && |db'.reviews.rows| < |db.reviews.rows|
      && !HasKey(db'.reviews, reviewId)
      && (forall i :: 0 <= i < |db.reviews.rows| && db.reviews.rows[i].id != reviewId ==> db.reviews.rows[i] in db'.reviews.rows)
      && (forall i :: 0 <= i < |db'.reviews.rows| ==> db'.reviews.rows[i] in db.reviews.rows)
      && (Valid(db.reviews) ==> Valid(db'.reviews))
  {
    match Get(db.reviews, reviewId)
    case None => Err(NotFoundError(ReviewMissing))
    case Some(row) =>
      if !HasKey(db.users, row.data.user) then Err(OtherError)
      else if row.data.user != userId then Err(ForbiddenError(NotReviewAuthor))
      else
        var reviews := Delete(db.reviews, reviewId);
        var i :| 0 <= i < |db.reviews.rows| && db.reviews.rows[i] == row;
        WhereDropsRejected(db.reviews.rows, IdIsNot(reviewId), i);
        var affected := |db.reviews.rows| - |reviews.rows|;
        if affected == 0 then Err(NotFoundError(NothingToDelete))
        else Ok(((), db.(reviews := reviews)))
  }

  /**
   The author of a review just created may delete it, and the delete gives back the
   review relation's rows as they were before the create.
   */
  lemma CreateThenDeleteReview(db: Db, userId: nat, productId: nat, contents: string, rating: int)
    requires Valid(db.reviews) && HasKey(db.users, userId)
    requires CreateReview(db, userId, productId, contents, rating).Ok?
    ensures var (row, db1) := CreateReview(db, userId, productId, contents, rating).value;
      var r := DeleteReview(db1, userId, row.id);
      && r.Ok?
      && r.value.1 == db.(reviews := r.value.1.reviews)
      && r.value.1.reviews.rows == db.reviews.rows
  {
    var (row, db1) := CreateReview(db, userId, productId, contents, rating).value;
    var i := |db.reviews.rows|;
    assert db1.reviews.rows[i] == row;
    GetRow(db1.reviews, i);
    DeleteAt(db1.reviews, i);
    assert db1.reviews.rows[..i] == db.reviews.rows;
  }

  /** One line of a seller's review list; the author columns are NULL when the author row is gone. */
  datatype ReviewEntry = ReviewEntry(
    productId: nat,
    buyerId: Option<nat>,
    reviewContent: string,
    rate: int,
    writerName: Option<string>,
    writerImg: Option<string>)

  function EntryOf(users: Table<User>, review: Review): (e: ReviewEntry)
    ensures e.productId == review.product && e.reviewContent == review.contents && e.rate == review.rating
    ensures e.buyerId.Some? <==> HasKey(users, review.user)
    ensures e.buyerId.Some? ==> e.buyerId.value == review.user
    ensures e.buyerId.Some? ==> e.writerName == Some(Get(users, review.user).value.data.nickname)
    ensures e.buyerId.Some? ==> e.writerImg == Some(Get(users, review.user).value.data.userImage)
    ensures e.buyerId.None? ==> e.writerName.None? && e.writerImg.None?
  {
    match Get(users, review.user)
    case None => ReviewEntry(review.product, None, review.contents, review.rating, None, None)
    case Some(u) => ReviewEntry(review.product, Some(u.id), review.contents, review.rating,
                                Some(u.data.nickname), Some(u.data.userImage))
  }

  /**
   `getReviewsByUser`: 404 for an unknown user, otherwise one entry per review of a
   product the user sells (the reviews the user received as a seller).
   */
  function GetReviewsByUser(db: Db, userId: nat): (r: Query<seq<ReviewEntry>>)
    ensures r.Err? <==> !HasKey(db.users, userId)
    ensures r.Err? ==> r.error == NotFoundError(UserMissing)
    ensures r.Ok? ==> |r.value| == |SellerReviews(db, userId)|
    ensures r.Ok? ==> forall i :: 0 <= i < |r.value| ==>
      OwnedBy(db.products, r.value[i].productId, userId)
      && SellerReviews(db, userId)[i] in db.reviews.rows
      && r.value[i] == EntryOf(db.users, SellerReviews(db, userId)[i].data)
    ensures r.Ok? ==> forall i :: 0 <= i < |db.reviews.rows| ==>
      (OwnedBy(db.products, db.reviews.rows[i].data.product, userId) ==>
        exists k :: 0 <= k < |r.value| && SellerReviews(db, userId)[k] == db.reviews.rows[i])
  {
    if !HasKey(db.users, userId) then Err(NotFoundError(UserMissing))
    else
      var sel := SellerReviews(db, userId);
      WhereSound(db.reviews.rows, OnData(ReviewedFrom(db.products, userId)));
      WhereComplete(db.reviews.rows, OnData(ReviewedFrom(db.products, userId)));
      Ok(seq(|sel|, i requires 0 <= i < |sel| => EntryOf(db.users, sel[i].data)))
  }

  /** The total of the rates of some entries. */
  function RateTotal(entries: seq<ReviewEntry>): int {
    if |entries| == 0 then 0 else entries[0].rate + RateTotal(entries[1..])
  }

  lemma {:induction false} RateTotalOfEntries(entries: seq<ReviewEntry>, rows: seq<Row<Review>>)
    requires |entries| == |rows|
    requires forall i :: 0 <= i < |rows| ==> entries[i].rate == rows[i].data.rating
    ensures RateTotal(entries) == RatingSum(rows)
  {
    if |rows| > 0 {
      RateTotalOfEntries(entries[1..], rows[1..]);
    }
  }

  /**
   The review list and the seller statistics describe the same reviews: as many
   entries as the review count, and rates whose total is the rating total the
   average is taken over.
   */
  lemma ReviewListMatchesStatistics(db: Db, userId: nat)
    requires HasKey(db.users, userId)
    ensures var list := GetReviewsByUser(db, userId).value;
      var detail := GetUserDetailById(db, userId).value;
      && |list| == detail.reviewNum
      && RateTotal(list) == RatingSum(SellerReviews(db, userId))
  {
    var list := GetReviewsByUser(db, userId).value;
    var sel := SellerReviews(db, userId);
    var detail := GetUserDetailById(db, userId).value;
    assert |list| == |sel| == detail.reviewNum;
    assert forall i :: 0 <= i < |sel| ==> list[i].rate == sel[i].data.rating;
    RateTotalOfEntries(list, sel);
  }
}

=== FILE: sorting.dfy ===
/**
 `ORDER BY key ASC|DESC` over a sequence: an insertion sort on an integer key,
 with its specification (ordered, and a permutation of the input).
 */
module Sorting {

  /** `a` may come before `b` in the requested direction. */
  predicate InOrder(a: int, b: int, descending: bool) {
    if descending then a >= b else a <= b
  }

  predicate SortedBy<T>(s: seq<T>, key: T -> int, descending: bool) {
    forall i, j :: 0 <= i < j < |s| ==> InOrder(key(s[i]), key(s[j]), descending)
  }

  /** `y` may come before every element of `s`. */
  predicate Precedes<T>(y: T, s: seq<T>, key: T -> int, descending: bool) {
    forall k :: 0 <= k < |s| ==> InOrder(key(y), key(s[k]), descending)
  }

  /** Whether `y` precedes a sequence depends only on its elements. */
  lemma PrecedesPermutation<T>(y: T, a: seq<T>, b: seq<T>, key: T -> int, descending: bool)
    requires multiset(a) == multiset(b) && Precedes(y, a, key, descending)
    ensures Precedes(y, b, key, descending)
  {
    forall k | 0 <= k < |b| ensures InOrder(key(y), key(b[k]), descending) {
      assert b[k] in multiset(a);
      var m :| 0 <= m < |a| && a[m] == b[k];
    }
  }

  /** An element that precedes an ordered sequence may be put in front of it. */
  lemma PrependSorted<T>(y: T, s: seq<T>, key: T -> int, descending: bool)
    requires SortedBy(s, key, descending) && Precedes(y, s, key, descending)
    ensures SortedBy([y] + s, key, descending)
  {
    var r := [y] + s;
    forall i, j | 0 <= i < j < |r| ensures InOrder(key(r[i]), key(r[j]), descending) {
      if i == 0 {
        assert r[j] == s[j - 1];
      } else {
        assert r[i] == s[i - 1] && r[j] == s[j - 1];
      }
    }
  }

  /** An element that may come before the head of an ordered sequence precedes all of it. */
  lemma PrecedesSorted<T>(y: T, s: seq<T>, key: T -> int, descending: bool)
    requires SortedBy(s, key, descending) && |s| > 0 && InOrder(key(y), key(s[0]), descending)
    ensures Precedes(y, s, key, descending)
  {
    forall k | 0 < k < |s| ensures InOrder(key(y), key(s[k]), descending) {
      assert InOrder(key(s[0]), key(s[k]), descending);
    }
  }

  /** Places `x` into the ordered sequence `s`, after every element it does not precede. */
  function InsertInOrder<T>(x: T, s: seq<T>, key: T -> int, descending: bool): (r: seq<T>)
    requires SortedBy(s, key, descending)
    ensures SortedBy(r, key, descending)
    ensures multiset(r) == multiset(s) + multiset{x}
    ensures |r| == |s| + 1
  {
    if |s| == 0 then [x]
    else if InOrder(key(x), key(s[0]), descending) then
      PrecedesSorted(x, s, key, descending);
      PrependSorted(x, s, key, descending);
      [x] + s
    else
      assert s == [s[0]] + s[1..];
      var rest := InsertInOrder(x, s[1..], key, descending);
      var tail := s[1..] + [x];
      assert Precedes(s[0], tail, key, descending) by {
        forall k | 0 <= k < |tail| ensures InOrder(key(s[0]), key(tail[k]), descending) {
          if k < |s| - 1 {
            assert tail[k] == s[k + 1];
          }
        }
      }
      PrecedesPermutation(s[0], tail, rest, key, descending);
      PrependSorted(s[0], rest, key, descending);
      [s[0]] + rest
  }

  /** The elements of `s` ordered by `key`; equal keys may come in any order. */
  function SortBy<T>(s: seq<T>, key: T -> int, descending: bool): (r: seq<T>)
    ensures SortedBy(r, key, descending)
    ensures multiset(r) == multiset(s)
    ensures |r| == |s|
  {
    if |s| == 0 then []
    else
      assert s == [s[0]] + s[1..];
      InsertInOrder(s[0], SortBy(s[1..], key, descending), key, descending)
  }
}

=== FILE: strings.dfy ===
/**
 Decimal text for numbers: how ids are written into messages, and how MySQL reads
 a numeric value off the front of a string when it compares the string with an
 integer column.
 */
module Strings {

  predicate IsDigit(c: char) {
    '0' <= c <= '9'
  }

  predicate AllDigits(s: string) {
    forall i :: 0 <= i < |s| ==> IsDigit(s[i])
  }

  function DigitValue(c: char): nat
    requires IsDigit(c)
  {
    (c as int - '0' as int) as nat
  }

  function DigitChar(d: nat): (c: char)
    requires d < 10
    ensures IsDigit(c) && DigitValue(c) == d
  {
    ('0' as int + d) as char
  }

  /** The decimal form of `n`, as JavaScript template literals print it. */
  function NatToString(n: nat): (s: string)
    ensures |s| > 0 && AllDigits(s)
  {
    if n < 10 then [DigitChar(n)]
    else NatToString(n / 10) + [DigitChar(n % 10)]
  }

  /** The value of the leading run of digits of `s`, accumulated onto `acc`; the rest of `s` is ignored. */
  function LeadingValue(s: string, acc: nat): nat
    decreases |s|
  {
    if |s| == 0 || !IsDigit(s[0]) then acc
    else LeadingValue(s[1..], acc * 10 + DigitValue(s[0]))
  }

  /** The number a string stands for when compared with an integer column (0 when it starts with no digit). */
  function LeadingNumber(s: string): nat {
    LeadingValue(s, 0)
  }

  lemma {:induction false} LeadingValueSnoc(a: string, c: char, acc: nat)
    requires AllDigits(a) && IsDigit(c)
    ensures LeadingValue(a + [c], acc) == LeadingValue(a, acc) * 10 + DigitValue(c)
    decreases |a|
  {
    if |a| == 0 {
      assert a + [c] == [c];
      assert [c][1..] == [];
    } else {
      assert (a + [c])[1..] == a[1..] + [c];
      LeadingValueSnoc(a[1..], c, acc * 10 + DigitValue(a[0]));
    }
  }

  /** Reading back the decimal form of an id gives the id. */
  lemma {:induction false} LeadingNumberOfNatToString(n: nat)
    ensures LeadingNumber(NatToString(n)) == n
  {
    if n < 10 {
      var s := [DigitChar(n)];
      assert s[1..] == [];
      assert LeadingValue(s, 0) == LeadingValue(s[1..], DigitValue(s[0]));
    } else {
      LeadingNumberOfNatToString(n / 10);
      LeadingValueSnoc(NatToString(n / 10), DigitChar(n % 10), 0);
    }
  }
}

=== FILE: tables.dfy ===
/**
 The abstract relational store the services talk to through their repositories.
 A table is its rows in primary-key order plus the auto-increment counter; a row is
 its primary key and its column values.  `findOne` is the first row a condition
 selects, `delete` removes the rows with a given primary key, `save` of a new
 entity appends a row under the next key.
 */
module Tables {
  import opened Wrappers

  datatype Row<T> = Row(id: nat, data: T)

  datatype Table<T> = Table(rows: seq<Row<T>>, nextId: nat)

  /** Primary keys strictly increase along the table and stay below the counter. */
  predicate Valid<T>(t: Table<T>) {
    && (forall i, j :: 0 <= i < j < |t.rows| ==> t.rows[i].id < t.rows[j].id)
    && (forall i :: 0 <= i < |t.rows| ==> t.rows[i].id < t.nextId)
  }

  /** `SELECT ... WHERE p`, keeping table order. */
  function Where<T>(rows: seq<Row<T>>, p: Row<T> -> bool): (r: seq<Row<T>>)
    ensures |r| <= |rows|
  {
    if |rows| == 0 then []
    else (if p(rows[0]) then [rows[0]] else []) + Where(rows[1..], p)
  }

  /** `SELECT COUNT(*) ... WHERE p`. */
  function Count<T>(rows: seq<Row<T>>, p: Row<T> -> bool): nat {
    |Where(rows, p)|
  }

  /** `findOne({ where: p })`: the first row the condition selects. */
  function First<T>(rows: seq<Row<T>>, p: Row<T> -> bool): (r: Option<Row<T>>)
    ensures r.Some? ==> r.value in rows && p(r.value)
    ensures r.None? <==> forall i :: 0 <= i < |rows| ==> !p(rows[i])
  {
    var w := Where(rows, p);
    WhereSound(rows, p);
    WhereComplete(rows, p);
    if |w| == 0 then None
    else Some(w[0])
  }

  /** The condition `id = k`. */
  function IdIs<T>(k: nat): Row<T> -> bool {
    (x: Row<T>) => x.id == k
  }

  /** The condition `id <> k`. */
  function IdIsNot<T>(k: nat): Row<T> -> bool {
    (x: Row<T>) => x.id != k
  }

  /** The condition that a row's columns are exactly `v`. */
  function DataIs<T(==)>(v: T): Row<T> -> bool {
    (x: Row<T>) => x.data == v
  }

  /** Some row has primary key `k`. */
  predicate HasKey<T>(t: Table<T>, k: nat) {
    exists i :: 0 <= i < |t.rows| && t.rows[i].id == k
  }

  /** A condition on a row's columns only. */
  function OnData<T>(q: T -> bool): Row<T> -> bool {
    (x: Row<T>) => q(x.data)
  }

  /** `findOneBy({ id: k })`. */
  function Get<T>(t: Table<T>, k: nat): (r: Option<Row<T>>)
    ensures r.Some? ==> r.value in t.rows && r.value.id == k
    ensures r.None? <==> !HasKey(t, k)
  {
    First(t.rows, IdIs(k))
  }

  /** In a valid table a key names one row, and `Get` returns it. */
  lemma GetRow<T>(t: Table<T>, i: nat)
    requires Valid(t) && i < |t.rows|
    ensures Get(t, t.rows[i].id) == Some(t.rows[i])
  {
    var r := Get(t, t.rows[i].id);
    var j :| 0 <= j < |t.rows| && t.rows[j] == r.value;
    assert j == i;
  }

  /** `save` of a new entity: the row gets the next primary key. */
  function Insert<T>(t: Table<T>, v: T): (r: (Table<T>, Row<T>))
    ensures r.1.data == v
    ensures Valid(t) ==> Valid(r.0) && forall i :: 0 <= i < |t.rows| ==> t.rows[i].id < r.1.id
    ensures r.0.rows == t.rows + [r.1]
  {
    var row := Row(t.nextId, v);
    (Table(t.rows + [row], t.nextId + 1), row)
  }

  /** `delete({ id: k })`. */
  function Delete<T>(t: Table<T>, k: nat): (r: Table<T>)
    ensures Valid(t) ==> Valid(r)
    ensures forall i :: 0 <= i < |r.rows| ==> r.rows[i] in t.rows && r.rows[i].id != k
    ensures forall i :: 0 <= i < |t.rows| && t.rows[i].id != k ==> t.rows[i] in r.rows
  {
    var r := Table(Where(t.rows, IdIsNot(k)), t.nextId);
    WhereSound(t.rows, IdIsNot(k));
    WhereComplete(t.rows, IdIsNot(k));
    assert Valid(t) ==> Valid(r) by {
      if Valid(t) {
        WhereSubsequence(t.rows, IdIsNot(k));
        forall i | 0 <= i < |r.rows| ensures r.rows[i].id < r.nextId {
          assert r.rows[i] in t.rows;
        }
      }
    }
    r
  }

  /** `update(k, v)`: the row with key `k` gets the columns `v`. */
  function Put<T>(t: Table<T>, k: nat, v: T): (r: Table<T>)
    ensures |r.rows| == |t.rows| && r.nextId == t.nextId
    ensures forall i :: 0 <= i < |t.rows| ==> r.rows[i].id == t.rows[i].id
    ensures forall i :: 0 <= i < |t.rows| && t.rows[i].id != k ==> r.rows[i] == t.rows[i]
    ensures forall i :: 0 <= i < |t.rows| && t.rows[i].id == k ==> r.rows[i].data == v
  {
    Table(seq(|t.rows|, i requires 0 <= i < |t.rows| =>
      if t.rows[i].id == k then Row(k, v) else t.rows[i]), t.nextId)
  }

  /** The column values of the rows, as a multiset: the table's contents up to keys and order. */
  function Bag<T>(t: Table<T>): multiset<T> {
    multiset(Datas(t.rows))
  }

  function Datas<T>(rows: seq<Row<T>>): (r: seq<T>)
    ensures |r| == |rows|
    ensures forall i :: 0 <= i < |rows| ==> r[i] == rows[i].data
  {
    seq(|rows|, i requires 0 <= i < |rows| => rows[i].data)
  }

  /** A table with at most one row per column tuple (the "find before create" invariant). */
  ghost predicate NoDuplicates<T>(t: Table<T>) {
    forall i :: 0 <= i < |t.rows| ==> Bag(t)[t.rows[i].data] <= 1
  }

  // ---------------------------------------------------------------------------
  // Facts about `Where`

  /** Every selected row is a row of the table that satisfies the condition. */
  lemma {:induction false} WhereSound<T>(rows: seq<Row<T>>, p: Row<T> -> bool)
    ensures forall i :: 0 <= i < |Where(rows, p)| ==> Where(rows, p)[i] in rows && p(Where(rows, p)[i])
  {
    if |rows| > 0 {
      WhereSound(rows[1..], p);
      var rest := Where(rows[1..], p);
      forall k | 0 <= k < |rest| ensures rest[k] in rows {
        assert rest[k] in rows[1..];
      }
    }
  }

  /** Every row that satisfies the condition is selected. */
  lemma {:induction false} WhereComplete<T>(rows: seq<Row<T>>, p: Row<T> -> bool)
    ensures forall i :: 0 <= i < |rows| && p(rows[i]) ==> rows[i] in Where(rows, p)
  {
    if |rows| > 0 {
      WhereComplete(rows[1..], p);
      var w := Where(rows, p);
      forall i | 0 <= i < |rows| && p(rows[i]) ensures rows[i] in w {
        if i > 0 {
          assert rows[i] == rows[1..][i - 1];
        }
      }
    }
  }

  lemma {:induction false} WhereConcat<T>(a: seq<Row<T>>, b: seq<Row<T>>, p: Row<T> -> bool)
    ensures Where(a + b, p) == Where(a, p) + Where(b, p)
  {
    if |a| == 0 {
      assert a + b == b;
    } else {
      var ab := a + b;
      assert ab[0] == a[0];
      assert ab[1..] == a[1..] + b;
      WhereConcat(a[1..], b, p);
      var head := if p(a[0]) then [a[0]] else [];
      assert Where(ab, p) == head + Where(a[1..] + b, p);
      assert Where(a, p) == head + Where(a[1..], p);
      assert head + (Where(a[1..], p) + Where(b, p)) == (head + Where(a[1..], p)) + Where(b, p);
    }
  }

  /** Two conditions that agree on every row select the same rows. */
  lemma {:induction false} WhereSame<T>(rows: seq<Row<T>>, p: Row<T> -> bool, q: Row<T> -> bool)
    requires forall i :: 0 <= i < |rows| ==> p(rows[i]) == q(rows[i])
    ensures Where(rows, p) == Where(rows, q)
  {
    if |rows| > 0 {
      assert forall i :: 0 <= i < |rows| - 1 ==> rows[1..][i] == rows[i + 1];
      WhereSame(rows[1..], p, q);
    }
  }

  lemma {:induction false} WhereKeepsAll<T>(rows: seq<Row<T>>, p: Row<T> -> bool)
    requires forall i :: 0 <= i < |rows| ==> p(rows[i])
    ensures Where(rows, p) == rows
  {
    if |rows| > 0 {
      WhereKeepsAll(rows[1..], p);
    }
  }

  /** `Where` keeps rows in their original relative order. */
  lemma {:induction false} WhereSubsequence<T>(rows: seq<Row<T>>, p: Row<T> -> bool)
    requires forall i, j :: 0 <= i < j < |rows| ==> rows[i].id < rows[j].id
    ensures forall i, j :: 0 <= i < j < |Where(rows, p)| ==> Where(rows, p)[i].id < Where(rows, p)[j].id
  {
    if |rows| > 0 {
      WhereSubsequence(rows[1..], p);
      WhereSound(rows[1..], p);
      var rest := Where(rows[1..], p);
      forall k | 0 <= k < |rest| ensures rows[0].id < rest[k].id {
        assert rest[k] in rows[1..];
        var j :| 0 <= j < |rows[1..]| && rows[1..][j] == rest[k];
        assert rows[1..][j] == rows[j + 1];
      }
      var w := Where(rows, p);
      if p(rows[0]) {
        assert w == [rows[0]] + rest;
      } else {
        assert w == rest;
      }
    }
  }

  /** A condition no row satisfies selects nothing. */
  lemma {:induction false} WhereNone<T>(rows: seq<Row<T>>, p: Row<T> -> bool)
    requires forall i :: 0 <= i < |rows| ==> !p(rows[i])
    ensures Where(rows, p) == []
  {
    if |rows| > 0 {
      WhereNone(rows[1..], p);
    }
  }

  /** A row the condition rejects makes the selection strictly shorter than the table. */
  lemma {:induction false} WhereDropsRejected<T>(rows: seq<Row<T>>, p: Row<T> -> bool, i: nat)
    requires i < |rows| && !p(rows[i])
    ensures |Where(rows, p)| < |rows|
  {
    if i > 0 {
      assert rows[1..][i - 1] == rows[i];
      WhereDropsRejected(rows[1..], p, i - 1);
    }
  }

  lemma {:induction false} WhereSingleton<T>(x: Row<T>, p: Row<T> -> bool)
    ensures Where([x], p) == if p(x) then [x] else []
  {
    assert [x][1..] == [];
  }

  /** Counting over an appended row. */
  lemma {:induction false} CountAppend<T>(rows: seq<Row<T>>, x: Row<T>, p: Row<T> -> bool)
    ensures Count(rows + [x], p) == Count(rows, p) + (if p(x) then 1 else 0)
  {
    WhereConcat(rows, [x], p);
    WhereSingleton(x, p);
  }

  /** In a valid table, deleting the key of row `i` removes that row and nothing else. */
  lemma {:induction false} DeleteAt<T>(t: Table<T>, i: nat)
    requires Valid(t) && i < |t.rows|
    ensures Delete(t, t.rows[i].id).rows == t.rows[..i] + t.rows[i + 1..]
  {
    var rows := t.rows;
    forall j | 0 <= j < |rows| && j != i ensures rows[j].id != rows[i].id {
      if j < i {
        assert rows[j].id < rows[i].id;
      } else {
        assert rows[i].id < rows[j].id;
      }
    }
    WhereDropsOnly(rows, i);
  }

  lemma {:induction false} WhereDropsOnly<T>(rows: seq<Row<T>>, i: nat)
    requires i < |rows|
    requires forall j :: 0 <= j < |rows| && j != i ==> rows[j].id != rows[i].id
    ensures Where(rows, IdIsNot(rows[i].id)) == rows[..i] + rows[i + 1..]
  {
    var keep := IdIsNot<T>(rows[i].id);
    var a, b := rows[..i], rows[i + 1..];
    assert rows == a + ([rows[i]] + b);
    forall j | 0 <= j < |a| ensures keep(a[j]) {
      assert a[j] == rows[j];
    }
    WhereKeepsAll(a, keep);
    forall j | 0 <= j < |b| ensures keep(b[j]) {
      assert b[j] == rows[i + 1 + j];
    }
    WhereKeepsAll(b, keep);
    WhereSingleton(rows[i], keep);
    assert !keep(rows[i]);
    WhereConcat([rows[i]], b, keep);
    assert Where([rows[i]] + b, keep) == b;
    WhereConcat(a, [rows[i]] + b, keep);
    assert Where(rows, keep) == a + b;
  }

  /** Counting over a valid table after deleting the key of row `i`. */
  lemma {:induction false} CountDeleteAt<T>(t: Table<T>, i: nat, p: Row<T> -> bool)
    requires Valid(t) && i < |t.rows|
    ensures Count(Delete(t, t.rows[i].id).rows, p) == Count(t.rows, p) - (if p(t.rows[i]) then 1 else 0)
  {
    DeleteAt(t, i);
    CountRemoveAt(t.rows, i, p);
  }

  /** Dropping the row at `i` lowers a count by one exactly when the condition selects that row. */
  lemma CountRemoveAt<T>(rows: seq<Row<T>>, i: nat, p: Row<T> -> bool)
    requires i < |rows|
    ensures Count(rows[..i] + rows[i + 1..], p) == Count(rows, p) - (if p(rows[i]) then 1 else 0)
  {
    var a, b := rows[..i], rows[i + 1..];
    assert rows == a + ([rows[i]] + b);
    WhereConcat(a, [rows[i]] + b, p);
    WhereConcat([rows[i]], b, p);
    WhereConcat(a, b, p);
    WhereSingleton(rows[i], p);
    assert |Where(rows, p)| == |Where(a, p)| + |Where([rows[i]], p)| + |Where(b, p)|;
  }


  lemma DatasConcat<T>(a: seq<Row<T>>, b: seq<Row<T>>)
    ensures Datas(a + b) == Datas(a) + Datas(b)
  {
    var l, r := Datas(a + b), Datas(a) + Datas(b);
    forall k | 0 <= k < |l| ensures l[k] == r[k] {
      if k < |a| {
        assert (a + b)[k] == a[k];
      } else {
        assert (a + b)[k] == b[k - |a|];
      }
    }
  }

  lemma BagDeleteAt<T>(t: Table<T>, i: nat)
    requires Valid(t) && i < |t.rows|
    ensures Bag(Delete(t, t.rows[i].id)) == Bag(t) - multiset{t.rows[i].data}
  {
    DeleteAt(t, i);
    DatasRemoveAt(t.rows, i);
  }

  /** Dropping the row at `i` drops one copy of its data. */
  lemma DatasRemoveAt<T>(rows: seq<Row<T>>, i: nat)
    requires i < |rows|
    ensures multiset(Datas(rows[..i] + rows[i + 1..])) == multiset(Datas(rows)) - multiset{rows[i].data}
  {
    var a, b := rows[..i], rows[i + 1..];
    assert rows == a + ([rows[i]] + b);
    DatasConcat(a, [rows[i]] + b);
    DatasConcat([rows[i]], b);
    DatasConcat(a, b);
    var da, db := Datas(a), Datas(b);
    assert Datas([rows[i]]) == [rows[i].data];
    assert Datas(rows) == da + ([rows[i].data] + db);
    MultisetRemove(da, rows[i].data, db);
  }

  lemma MultisetRemove<T>(x: seq<T>, v: T, y: seq<T>)
    ensures multiset(x + y) == multiset(x + ([v] + y)) - multiset{v}
  {
  }

  lemma {:induction false} InBag<T>(t: Table<T>, v: T)
    ensures v in Bag(t) <==> exists i :: 0 <= i < |t.rows| && t.rows[i].data == v
  {
    var d := Datas(t.rows);
    if v in Bag(t) {
      assert v in d;
      var i :| 0 <= i < |d| && d[i] == v;
      assert t.rows[i] in t.rows;
    }
    if exists i :: 0 <= i < |t.rows| && t.rows[i].data == v {
      var i :| 0 <= i < |t.rows| && t.rows[i].data == v;
      assert d[i] == v;
    }
  }

  // ---------------------------------------------------------------------------
  // The toggle mutation: look up the row holding exactly `v`; delete it if it is
  // there, insert it otherwise.  Likes and follows are both this pattern.

  /** Returns the new table and whether the row now exists (true: created, false: removed). */
  function Toggle<T(==)>(t: Table<T>, v: T): (r: (Table<T>, bool))
    ensures Valid(t) ==> Valid(r.0)
    ensures r.1 <==> v !in Bag(t)
  {
    InBag(t, v);
    match First(t.rows, DataIs(v))
    case Some(row) => (Delete(t, row.id), false)
    case None => (Insert(t, v).0, true)
  }

  /** A toggle adds one copy of `v` when there was none and removes one otherwise. */
  lemma ToggleBag<T>(t: Table<T>, v: T)
    ensures var (t', created) := Toggle(t, v);
      Valid(t) ==> Bag(t') == if created then Bag(t) + multiset{v} else Bag(t) - multiset{v}
  {
    if Valid(t) {
      match First(t.rows, DataIs(v))
      case Some(row) =>
        var i :| 0 <= i < |t.rows| && t.rows[i] == row;
        BagDeleteAt(t, i);
      case None =>
        var (t', row) := Insert(t, v);
        assert Datas(t'.rows) == Datas(t.rows) + [v];
    }
  }

  /** How a toggle changes a count taken over the rows' columns. */
  lemma ToggleCount<T>(t: Table<T>, v: T, q: T -> bool)
    requires Valid(t)
    ensures var (t', created) := Toggle(t, v);
      Count(t'.rows, OnData(q)) ==
        if !q(v) then Count(t.rows, OnData(q))
        else if created then Count(t.rows, OnData(q)) + 1
        else Count(t.rows, OnData(q)) - 1
  {
    match First(t.rows, DataIs(v))
    case Some(row) =>
      var i :| 0 <= i < |t.rows| && t.rows[i] == row;
      CountDeleteAt(t, i, OnData(q));
    case None =>
      var (t', row) := Insert(t, v);
      CountAppend(t.rows, row, OnData(q));
  }

  /** A toggle keeps every value at most once in the relation. */
  lemma ToggleKeepsNoDuplicates<T>(t: Table<T>, v: T)
    requires Valid(t) && NoDuplicates(t)
    ensures NoDuplicates(Toggle(t, v).0)
  {
    var (t', created) := Toggle(t, v);
    ToggleBag(t, v);
    assert Bag(t')[v] <= 1;
    forall i | 0 <= i < |t'.rows| ensures Bag(t')[t'.rows[i].data] <= 1 {
      var w := t'.rows[i].data;
      if w != v {
        assert Bag(t')[w] == Bag(t)[w];
        InBag(t', w);
        InBag(t, w);
        var j :| 0 <= j < |t.rows| && t.rows[j].data == w;
        assert Bag(t)[t.rows[j].data] <= 1;
      }
    }
  }

  /** Toggling twice restores the contents, provided `v` occurred at most once. */
  lemma ToggleTwice<T>(t: Table<T>, v: T)
    requires Valid(t) && Bag(t)[v] <= 1
    ensures var (t1, c1) := Toggle(t, v);
      var (t2, c2) := Toggle(t1, v);
      Bag(t2) == Bag(t) && c2 == !c1
  {
    var (t1, c1) := Toggle(t, v);
    var (t2, c2) := Toggle(t1, v);
    ToggleBag(t, v);
    ToggleBag(t1, v);
    if c1 {
      assert Bag(t1)[v] == 1;
      assert Bag(t2) == Bag(t1) - multiset{v};
    } else {
      assert Bag(t1)[v] == 0;
      assert Bag(t2) == Bag(t1) + multiset{v};
    }
  }

  /** When `v` was absent, toggling twice gives back exactly the same rows. */
  lemma ToggleTwiceFromAbsent<T>(t: Table<T>, v: T)
    requires Valid(t) && v !in Bag(t)
    ensures Toggle(Toggle(t, v).0, v).0.rows == t.rows
  {
    var t1 := Toggle(t, v).0;
    var i := |t.rows|;
    assert t1.rows == t.rows + [Row(t.nextId, v)];
    assert t1.rows[i].data == v;
    forall j | 0 <= j < i ensures t1.rows[j].data != v {
      InBag(t, v);
      assert t1.rows[j] in t.rows;
    }
    var w := Where(t1.rows, DataIs(v));
    assert t1.rows == t.rows + [t1.rows[i]];
    WhereConcat(t.rows, [t1.rows[i]], DataIs(v));
    WhereSingleton(t1.rows[i], DataIs(v));
    assert Where(t.rows, DataIs(v)) == [] by {
      InBag(t, v);
      WhereSound(t.rows, DataIs(v));
    }
    assert First(t1.rows, DataIs(v)) == Some(t1.rows[i]);
    DeleteAt(t1, i);
    assert t1.rows[..i] == t.rows;
  }
}

=== FILE: users.dfy ===
/** `UsersService` (src/users/users.service.ts). */
module Users {
  import opened Wrappers
  import opened Tables
  import opened Exceptions
  import opened Entities
  import opened Strings
  import Likes
  import Follows

  function UserNotFoundMessage(userId: nat): string {
    "Not found user. userId [" + NatToString(userId) + "]"
  }

  const DuplicatedUser: string := "Duplicated user."

  // ---------------------------------------------------------------------------
  // Creating and finding users

  /**
   `createSocialUser`: a new user holding only the provider id; the app nickname,
   address, image and introduction are empty and the coordinates 0.  `providerNick`
   is the second argument; it is passed as `name`, a key the entity does not declare,
   so the repository does not store it.
   */
  function CreateSocialUser(db: Db, socialId: string, providerNick: Option<string>): (r: (Row<User>, Db))
    ensures r.0.data.socialId == socialId && r.0.data.platform == Kakao && r.0.data.name.None?
    ensures r.0.data.nickname == "" && r.0.data.address == "" && r.0.data.userImage == ""
    ensures r.0.data.description == "" && r.0.data.latitude == 0 && r.0.data.longitude == 0
    ensures r.1 == db.(users := r.1.users) && r.1.users.rows == db.users.rows + [r.0]
    ensures Valid(db.users) ==> Valid(r.1.users) && !HasKey(db.users, r.0.id)
  {
    var (users, row) := Insert(db.users, User("", 0, 0, "", "", "", socialId, Kakao, None));
    (row, db.(users := users))
  }

  /** The condition `social_id = s`. */
  function SocialIdIs(s: string): User -> bool {
    (u: User) => u.socialId == s
  }

  /**
   `findBySocialId`.  When the id is absent (`undefined`), the repository drops the
   condition and the first user of the table comes back.
   */
  function FindBySocialId(db: Db, socialId: Option<string>): (r: Option<Row<User>>)
    ensures socialId.Some? && r.Some? ==> r.value in db.users.rows && r.value.data.socialId == socialId.value
    ensures socialId.Some? && r.None? <==>
      socialId.Some? && forall i :: 0 <= i < |db.users.rows| ==> db.users.rows[i].data.socialId != socialId.value
    ensures socialId.None? ==> r == if |db.users.rows| == 0 then None else Some(db.users.rows[0])
  {
    match socialId
    case None => if |db.users.rows| == 0 then None else Some(db.users.rows[0])
    case Some(s) => First(db.users.rows, OnData(SocialIdIs(s)))
  }

  /** A user created for a provider id no user carried is the one that id finds afterwards. */
  lemma CreatedUserIsFound(db: Db, socialId: string, providerNick: Option<string>)
    requires forall i :: 0 <= i < |db.users.rows| ==> db.users.rows[i].data.socialId != socialId
    ensures var (row, db') := CreateSocialUser(db, socialId, providerNick);
      FindBySocialId(db', Some(socialId)) == Some(row)
  {
    var (row, db') := CreateSocialUser(db, socialId, providerNick);
    var p := OnData(SocialIdIs(socialId));
    WhereConcat(db.users.rows, [row], p);
    WhereSingleton(row, p);
    WhereComplete(db.users.rows, p);
    WhereSound(db.users.rows, p);
  }

  // ---------------------------------------------------------------------------
  // Signup

  /** The signup form (`CreateUserDto`); its validation decorators are not applied by the application. */
  datatype SignupForm = SignupForm(nickname: string, address: string, latitude: int, longitude: int)

  /**
   `createUserData`: 404 for an unknown user, 409 once the user has a non-empty
   nickname, otherwise the four form columns are written to the user's row.
   */
  function CreateUserData(db: Db, userId: nat, form: SignupForm): (r: Mutation<()>)
    ensures !HasKey(db.users, userId) ==> r == Err(NotFoundError(UserNotFoundMessage(userId)))
    ensures HasKey(db.users, userId) ==>
      (r.Err? <==> Get(db.users, userId).value.data.nickname != "")
    ensures HasKey(db.users, userId) && r.Err? ==> r.error == ConflictError(DuplicatedUser)
    ensures r.Ok? ==> var db' := r.value.1;
      && db' == db.(users := db'.users)
      && |db'.users.rows| == |db.users.rows| && db'.users.nextId == db.users.nextId
      && (forall i :: 0 <= i < |db.users.rows| && db.users.rows[i].id != userId ==> db'.users.rows[i] == db.users.rows[i])
      && (forall i :: 0 <= i < |db.users.rows| && db.users.rows[i].id == userId ==>
            db'.users.rows[i] == Row(userId, Get(db.users, userId).value.data.(nickname := form.nickname,
              address := form.address, latitude := form.latitude, longitude := form.longitude)))
  {
    match Get(db.users, userId)
    case None => Err(NotFoundError(UserNotFoundMessage(userId)))
    case Some(row) =>
      if row.data.nickname != "" then Err(ConflictError(DuplicatedUser))
      else
        var u := row.data.(nickname := form.nickname, address := form.address,
                           latitude := form.latitude, longitude := form.longitude);
        Ok(((), db.(users := Put(db.users, userId, u))))
  }

  /** After a signup with a non-empty nickname, signing up again is refused with 409. */
  lemma SignupOnlyOnce(db: Db, userId: nat, form: SignupForm, again: SignupForm)
    requires Valid(db.users)
    requires form.nickname != ""
    requires CreateUserData(db, userId, form).Ok?
    ensures var db' := CreateUserData(db, userId, form).value.1;
      CreateUserData(db', userId, again) == Err(ConflictError(DuplicatedUser))
  {
    var db' := CreateUserData(db, userId, form).value.1;
    var i :| 0 <= i < |db.users.rows| && db.users.rows[i].id == userId;
    assert Valid(db'.users);
    GetRow(db'.users, i);
  }

  /** An empty nickname does not close signup: the same call succeeds a second time. */
  lemma EmptyNicknameLeavesSignupOpen(db: Db, userId: nat, form: SignupForm)
    requires Valid(db.users)
    requires form.nickname == ""
    requires CreateUserData(db, userId, form).Ok?
    ensures CreateUserData(CreateUserData(db, userId, form).value.1, userId, form).Ok?
  {
    var db' := CreateUserData(db, userId, form).value.1;
    var row := Get(db'.users, userId).value;
    var j :| 0 <= j < |db'.users.rows| && db'.users.rows[j] == row;
    assert db'.users.rows[j].data.nickname == "";
  }

  // ---------------------------------------------------------------------------
  // Seller statistics (`getUserDetailById`)

  /** The condition `p.user_id = u`. */
  function SoldBy(u: nat): Product -> bool {
    (p: Product) => p.seller == u
  }

  /** Product `pid` exists and is sold by `u` (the inner join on the product). */
  predicate OwnedBy(products: Table<Product>, pid: nat, u: nat) {
    exists i :: 0 <= i < |products.rows| && products.rows[i].id == pid && products.rows[i].data.seller == u
  }

  /** The condition on reviews joined to a product of seller `u`. */
  function ReviewedFrom(products: Table<Product>, u: nat): Review -> bool {
    (r: Review) => OwnedBy(products, r.product, u)
  }

  /** The condition on orders with status code 1 joined to a product of seller `u`. */
  function PreparingFrom(products: Table<Product>, u: nat): Order -> bool {
    (o: Order) => o.status.Code() == 1 && OwnedBy(products, o.product, u)
  }

  /** The condition `l.user_id = u`: likes the user gave. */
  function GivenBy(u: nat): Like -> bool {
    (l: Like) => l.user == u
  }

  /** The condition `f.follower = u`. */
  function FollowsFrom(u: nat): Follow -> bool {
    (f: Follow) => f.follower == u
  }

  /** The condition `f.followee = u`. */
  function FollowsTo(u: nat): Follow -> bool {
    (f: Follow) => f.followee == u
  }

  /** The condition `o.user_id = u`. */
  function OrderedBy(u: nat): Order -> bool {
    (o: Order) => o.user == u
  }

  function Ids<T>(rows: seq<Row<T>>): (r: seq<nat>)
    ensures |r| == |rows| && forall i :: 0 <= i < |rows| ==> r[i] == rows[i].id
  {
    seq(|rows|, i requires 0 <= i < |rows| => rows[i].id)
  }

  /** The sum of the ratings of some review rows. */
  function RatingSum(rows: seq<Row<Review>>): int {
    if |rows| == 0 then 0 else rows[0].data.rating + RatingSum(rows[1..])
  }

  /** The reviews of the seller's products. */
  function SellerReviews(db: Db, u: nat): seq<Row<Review>> {
    Where(db.reviews.rows, OnData(ReviewedFrom(db.products, u)))
  }

  /** The record `getUserDetailById` returns; `productIds` is `JSON_ARRAYAGG`, NULL over no rows. */
  datatype UserDetail = UserDetail(
    sellerId: nat,
    name: Option<string>,
    sellerName: string,
    sellerImg: string,
    sellerIntro: string,
    address: string,
    latitude: int,
    longitude: int,
    productIds: Option<seq<nat>>,
    starAvg: real,
    reviewNum: nat,
    onSaleNum: nat,
    soldOutNum: nat,
    likeNum: nat,
    followingNum: nat,
    followNum: nat,
    orderNum: nat)

  /**
   `getUserDetailById`.  For an unknown user the query returns no row and reading a
   field of `undefined` throws a plain error.  `name` falls back to the alias
   `nickname`, which the query never selects, so an empty or NULL name becomes absent.
   */
  function GetUserDetailById(db: Db, userId: nat): (r: Query<UserDetail>)
    ensures r.Err? <==> !HasKey(db.users, userId)
    ensures r.Err? ==> r.error == OtherError
    ensures r.Ok? ==> var u := Get(db.users, userId).value.data;
      && r.value.sellerId == userId
      && r.value.sellerName == u.nickname && r.value.sellerImg == u.userImage
      && r.value.sellerIntro == u.description && r.value.address == u.address
      && r.value.latitude == u.latitude && r.value.longitude == u.longitude
      && (r.value.name.Some? <==> u.name.Some? && u.name.value != "")
      && (r.value.name.Some? ==> r.value.name == u.name)
    ensures r.Ok? ==> (r.value.productIds.None? <==> r.value.onSaleNum == 0)
    ensures r.Ok? && r.value.productIds.Some? ==>
      |r.value.productIds.value| == r.value.onSaleNum
      && forall k :: 0 <= k < |r.value.productIds.value| ==> OwnedBy(db.products, r.value.productIds.value[k], userId)
    ensures r.Ok? ==> forall i :: 0 <= i < |db.products.rows| && db.products.rows[i].data.seller == userId ==>
      r.value.productIds.Some? && db.products.rows[i].id in r.value.productIds.value
    ensures r.Ok? ==> r.value.onSaleNum == Count(db.products.rows, OnData(SoldBy(userId)))
    ensures r.Ok? ==> r.value.reviewNum == |SellerReviews(db, userId)|
    ensures r.Ok? ==> r.value.starAvg * r.value.reviewNum as real == RatingSum(SellerReviews(db, userId)) as real
    ensures r.Ok? && r.value.reviewNum == 0 ==> r.value.starAvg == 0.0
    ensures r.Ok? ==> r.value.soldOutNum == Count(db.orders.rows, OnData(PreparingFrom(db.products, userId)))
    ensures r.Ok? ==> r.value.likeNum == Count(db.likes.rows, OnData(GivenBy(userId)))
    ensures r.Ok? ==> r.value.followingNum == Count(db.follows.rows, OnData(FollowsFrom(userId)))
    ensures r.Ok? ==> r.value.followNum == Count(db.follows.rows, OnData(FollowsTo(userId)))
    ensures r.Ok? ==> r.value.orderNum == Count(db.orders.rows, OnData(OrderedBy(userId)))
  {
    match Get(db.users, userId)
    case None => Err(OtherError)
    case Some(row) => Ok(DetailOf(db, userId, row.data))
  }

  /** The keys of the products `userId` sells, absent when there are none. */
  function SoldIds(products: Table<Product>, userId: nat): (r: Option<seq<nat>>)
    ensures r.None? <==> Count(products.rows, OnData(SoldBy(userId))) == 0
    ensures r.Some? ==>
      |r.value| == Count(products.rows, OnData(SoldBy(userId)))
      && forall k :: 0 <= k < |r.value| ==> OwnedBy(products, r.value[k], userId)
    ensures forall i :: 0 <= i < |products.rows| && products.rows[i].data.seller == userId ==>
      r.Some? && products.rows[i].id in r.value
  {
    var sold := Where(products.rows, OnData(SoldBy(userId)));
    SoldProductsOwned(products, userId);
    SoldProductsListed(products, userId);
    if |sold| == 0 then None else Some(Ids(sold))
  }

  /** Every product of the seller is selected by the seller condition, so its key is listed. */
  lemma SoldProductsListed(products: Table<Product>, u: nat)
    ensures forall i :: 0 <= i < |products.rows| && products.rows[i].data.seller == u ==>
      products.rows[i].id in Ids(Where(products.rows, OnData(SoldBy(u))))
  {
    var sold := Where(products.rows, OnData(SoldBy(u)));
    WhereComplete(products.rows, OnData(SoldBy(u)));
    forall i | 0 <= i < |products.rows| && products.rows[i].data.seller == u
      ensures products.rows[i].id in Ids(sold)
    {
      assert OnData(SoldBy(u))(products.rows[i]);
      var k :| 0 <= k < |sold| && sold[k] == products.rows[i];
      assert Ids(sold)[k] == products.rows[i].id;
    }
  }

  /** The statistics row for user `userId`, whose columns are `u`. */
  function DetailOf(db: Db, userId: nat, u: User): UserDetail {
    var reviews := SellerReviews(db, userId);
    UserDetail(
      userId,
      if u.name.Some? && u.name.value != "" then u.name else None,
      u.nickname, u.userImage, u.description, u.address, u.latitude, u.longitude,
      SoldIds(db.products, userId),
      Mean(reviews),
      |reviews|,
      Count(db.products.rows, OnData(SoldBy(userId))),
      Count(db.orders.rows, OnData(PreparingFrom(db.products, userId))),
      Count(db.likes.rows, OnData(GivenBy(userId))),
      Count(db.follows.rows, OnData(FollowsFrom(userId))),
      Count(db.follows.rows, OnData(FollowsTo(userId))),
      Count(db.orders.rows, OnData(OrderedBy(userId))))
  }

  /** Every product the seller condition selects is owned by the seller. */
  lemma SoldProductsOwned(products: Table<Product>, u: nat)
    ensures forall k :: 0 <= k < |Where(products.rows, OnData(SoldBy(u)))| ==>
      OwnedBy(products, Where(products.rows, OnData(SoldBy(u)))[k].id, u)
  {
    var sold := Where(products.rows, OnData(SoldBy(u)));
    WhereSound(products.rows, OnData(SoldBy(u)));
    forall k | 0 <= k < |sold| ensures OwnedBy(products, sold[k].id, u) {
      var i :| 0 <= i < |products.rows| && products.rows[i] == sold[k];
    }
  }

  /** The average rating, 0 when there are no reviews. */
  function Mean(rows: seq<Row<Review>>): (m: real)
    ensures m * |rows| as real == RatingSum(rows) as real
    ensures |rows| == 0 ==> m == 0.0
  {
    if |rows| == 0 then 0.0 else RatingSum(rows) as real / |rows| as real
  }

  lemma MulSucc(a: int, n: nat)
    ensures a * (n + 1) == a * n + a
  {
  }

  lemma {:induction false} RatingSumBounds(rows: seq<Row<Review>>, lo: int, hi: int)
    requires forall i :: 0 <= i < |rows| ==> lo <= rows[i].data.rating <= hi
    ensures lo * |rows| <= RatingSum(rows) <= hi * |rows|
  {
    if |rows| > 0 {
      var n := |rows| - 1;
      assert forall i :: 0 <= i < n ==> rows[1..][i] == rows[i + 1];
      RatingSumBounds(rows[1..], lo, hi);
      assert lo <= rows[0].data.rating <= hi;
      assert RatingSum(rows) == rows[0].data.rating + RatingSum(rows[1..]);
      MulSucc(lo, n);
      MulSucc(hi, n);
    }
  }

  lemma AverageBounds(sum: int, n: nat, avg: real, lo: int, hi: int)
    requires n > 0 && avg * n as real == sum as real
    requires lo * n <= sum <= hi * n
    ensures lo as real <= avg <= hi as real
  {
    var m := n as real;
    assert (lo * n) as real == lo as real * m;
    assert (hi * n) as real == hi as real * m;
    assert (avg - lo as real) * m >= 0.0;
    assert (hi as real - avg) * m >= 0.0;
  }

  /** The average of ratings that lie in [lo, hi] lies there too. */
  lemma MeanBounds(rows: seq<Row<Review>>, avg: real, lo: int, hi: int)
    requires |rows| > 0 && avg * |rows| as real == RatingSum(rows) as real
    requires forall i :: 0 <= i < |rows| ==> lo <= rows[i].data.rating <= hi
    ensures lo as real <= avg <= hi as real
  {
    RatingSumBounds(rows, lo, hi);
    AverageBounds(RatingSum(rows), |rows|, avg, lo, hi);
  }

  /** When every rating of the seller's reviews lies in [lo, hi], so does the average; with no reviews it is 0. */
  lemma StarAverageBounds(db: Db, userId: nat, lo: int, hi: int)
    requires HasKey(db.users, userId)
    requires forall i :: 0 <= i < |SellerReviews(db, userId)| ==> lo <= SellerReviews(db, userId)[i].data.rating <= hi
    ensures var d := GetUserDetailById(db, userId).value;
      d.reviewNum > 0 ==> lo as real <= d.starAvg <= hi as real
  {
    var d := GetUserDetailById(db, userId).value;
    if d.reviewNum > 0 {
      MeanBounds(SellerReviews(db, userId), d.starAvg, lo, hi);
    }
  }

  /** Order status code 1 is PREPARING: the sold-out count counts preparing orders and no others. */
  lemma SoldOutCountsPreparingOrders(products: Table<Product>, u: nat, o: Order)
    ensures PreparingFrom(products, u)(o) <==> o.status == Preparing && OwnedBy(products, o.product, u)
  {
    OnlyPreparingHasCodeOne(o.status);
  }

  // ---------------------------------------------------------------------------
  // Follow state (`getFollow`)

  /**
   `getFollow`: whether `userId` follows `followeeId`.  The EXISTS is selected once
   per row of the follow table itself, so over an empty follow table no row comes
   back and the result is absent.
   */
  function GetFollow(db: Db, userId: nat, followeeId: nat): (r: Option<bool>)
    ensures r.None? <==> |db.follows.rows| == 0
    ensures r.Some? ==> (r.value <==> Follow(userId, followeeId) in Bag(db.follows))
  {
    InBag(db.follows, Follow(userId, followeeId));
    if |db.follows.rows| == 0 then None
    else Some(exists i :: 0 <= i < |db.follows.rows| && db.follows.rows[i].data == Follow(userId, followeeId))
  }

  /** The existence answer always comes back, whether or not the follow table has rows. */
  function GetFollowFixed(db: Db, userId: nat, followeeId: nat): (r: bool)
    ensures r <==> Follow(userId, followeeId) in Bag(db.follows)
  {
    InBag(db.follows, Follow(userId, followeeId));
    exists i :: 0 <= i < |db.follows.rows| && db.follows.rows[i].data == Follow(userId, followeeId)
  }

  /** Unfollowing the only follow row leaves the existence answer absent instead of 0. */
  lemma GetFollowLosesAnswerOnEmptyTable(db: Db, a: nat, b: nat)
    requires Valid(db.follows) && db.follows.rows == [Row(0, Follow(a, b))]
    ensures var (followed, db') := Follows.ToggleFollow(db, a, b);
      !followed && GetFollow(db', a, b) == None && !GetFollowFixed(db', a, b)
  {
    var (followed, db') := Follows.ToggleFollow(db, a, b);
    assert db.follows.rows[0].data == Follow(a, b);
    assert Follow(a, b) in Bag(db.follows);
    assert Bag(db'.follows) == multiset{};
  }

  /** After a follow toggle the existence answer reports the toggle's outcome. */
  lemma GetFollowAfterToggle(db: Db, a: nat, b: nat)
    requires Valid(db.follows) && Bag(db.follows)[Follow(a, b)] <= 1
    ensures var (followed, db') := Follows.ToggleFollow(db, a, b);
      GetFollowFixed(db', a, b) == followed
  {
  }

  // ---------------------------------------------------------------------------
  // Shop page (`findOne`)

  /** The caller's own summary, as `findOne` builds it. */
  datatype MyData = MyData(
    writerId: nat,
    writerName: string,
    writerImg: string,
    address: string,
    latitude: int,
    longitude: int,
    realName: Option<string>)

  /** The page; `isFollow` is the existence answer, absent when the query returned no row. */
  datatype ShopPage = ShopPage(isMyShop: bool, isFollow: Option<bool>, myData: MyData, shopData: UserDetail)

  /** The page built from the two statistics rows and the given existence answer. */
  function ShopOf(db: Db, callerId: nat, userId: nat, isFollow: Option<bool>): Query<ShopPage> {
    var shop :- GetUserDetailById(db, userId);
    var me :- GetUserDetailById(db, callerId);
    Ok(ShopPage(userId == callerId, isFollow,
      MyData(me.sellerId, me.sellerName, me.sellerImg, me.address, me.latitude, me.longitude, me.name),
      shop))
  }

  /**
   `findOne`: the shop owner's statistics, the caller's summary and the raw answer of
   `getFollow`, which is absent whenever the follow table is empty.  The not-found
   check after the first lookup can never fire, because the lookup itself throws for
   an unknown user.
   */
  function FindOne(db: Db, callerId: nat, userId: nat): (r: Query<ShopPage>)
    ensures r.Err? <==> !HasKey(db.users, userId) || !HasKey(db.users, callerId)
    ensures r.Err? ==> r.error == OtherError
    ensures r.Ok? ==> (r.value.isMyShop <==> callerId == userId)
    ensures r.Ok? ==> r.value.shopData == GetUserDetailById(db, userId).value
    ensures r.Ok? ==> var me := GetUserDetailById(db, callerId).value;
      r.value.myData == MyData(callerId, me.sellerName, me.sellerImg, me.address, me.latitude, me.longitude, me.name)
    ensures r.Ok? ==> (r.value.isFollow.None? <==> |db.follows.rows| == 0)
    ensures r.Ok? && r.value.isFollow.Some? ==> (r.value.isFollow.value <==> Follow(callerId, userId) in Bag(db.follows))
  {
    ShopOf(db, callerId, userId, GetFollow(db, callerId, userId))
  }

  /** `findOne` with the corrected existence answer, which is always present. */
  function FindOneFixed(db: Db, callerId: nat, userId: nat): (r: Query<ShopPage>)
    ensures r.Err? <==> !HasKey(db.users, userId) || !HasKey(db.users, callerId)
    ensures r.Ok? ==> r.value.isFollow.Some?
    ensures r.Ok? ==> (r.value.isFollow.value <==> Follow(callerId, userId) in Bag(db.follows))
    ensures r.Ok? ==> r.value == FindOne(db, callerId, userId).value.(isFollow := r.value.isFollow)
  {
    ShopOf(db, callerId, userId, Some(GetFollowFixed(db, callerId, userId)))
  }

  /** As written, the page's follow flag after a follow toggle is the toggle's outcome, unless the table became empty. */
  lemma FindOneFollowsToggle(db: Db, callerId: nat, userId: nat)
    requires Valid(db.follows) && Bag(db.follows)[Follow(callerId, userId)] <= 1
    requires HasKey(db.users, userId) && HasKey(db.users, callerId)
    ensures var (followed, db') := Follows.ToggleFollow(db, callerId, userId);
      FindOne(db', callerId, userId).value.isFollow == if |db'.follows.rows| == 0 then None else Some(followed)
  {
    var (followed, db') := Follows.ToggleFollow(db, callerId, userId);
    assert db'.users == db.users;
    GetFollowAfterToggle(db, callerId, userId);
  }

  /** With the corrected answer, the page's follow flag after a follow toggle is always the toggle's outcome. */
  lemma FindOneFixedFollowsToggle(db: Db, callerId: nat, userId: nat)
    requires Valid(db.follows) && Bag(db.follows)[Follow(callerId, userId)] <= 1
    requires HasKey(db.users, userId) && HasKey(db.users, callerId)
    ensures var (followed, db') := Follows.ToggleFollow(db, callerId, userId);
      FindOneFixed(db', callerId, userId).value.isFollow == Some(followed)
  {
    var (followed, db') := Follows.ToggleFollow(db, callerId, userId);
    assert db'.users == db.users;
    GetFollowAfterToggle(db, callerId, userId);
  }

  /** The following list has one entry per follow the user's `followingNum` counts. */
  lemma FollowingListMatchesStatistics(db: Db, userId: nat)
    requires HasKey(db.users, userId) && Follows.GetFollowingList(db, userId).Ok?
    ensures |Follows.GetFollowingList(db, userId).value| == GetUserDetailById(db, userId).value.followingNum
  {
    var rows := db.follows.rows;
    forall i | 0 <= i < |rows| ensures Follows.FollowerIs(userId)(rows[i]) == OnData(FollowsFrom(userId))(rows[i]) {
    }
    WhereSame(rows, Follows.FollowerIs(userId), OnData(FollowsFrom(userId)));
  }

  /** An unknown shop owner is reported as 500, never as 404. */
  lemma FindOneNeverNotFound(db: Db, callerId: nat, userId: nat)
    ensures FindOne(db, callerId, userId).Err? ==> Catch(FindOne(db, callerId, userId).error).status == 500
  {
  }

  // ---------------------------------------------------------------------------
  // Profile update (`updateUser`)

  /**
   The keys of the request body `Object.assign` copies onto the user: the fields of
   `UpdateUserDto`, plus the provider columns `social_id` and `social_platform_id`,
   which no validation pipe strips.  Absent keys leave the column alone.
   */
  datatype UserPatch = UserPatch(
    nickname: Option<string>,
    address: Option<string>,
    latitude: Option<int>,
    longitude: Option<int>,
    description: Option<string>,
    userImage: Option<string>,
    socialId: Option<string>,
    platform: Option<SocialPlatform>)

  function Pick<T>(o: Option<T>, otherwise: T): T {
    if o.Some? then o.value else otherwise
  }

  /** `Object.assign(user, patch)`. */
  function ApplyPatch(u: User, p: UserPatch): (r: User)
    ensures p.nickname.Some? ==> r.nickname == p.nickname.value
    ensures p.nickname.None? ==> r.nickname == u.nickname
    ensures p.address.Some? ==> r.address == p.address.value
    ensures p.address.None? ==> r.address == u.address
    ensures p.latitude.Some? ==> r.latitude == p.latitude.value
    ensures p.latitude.None? ==> r.latitude == u.latitude
    ensures p.longitude.Some? ==> r.longitude == p.longitude.value
    ensures p.longitude.None? ==> r.longitude == u.longitude
    ensures p.description.Some? ==> r.description == p.description.value
    ensures p.description.None? ==> r.description == u.description
    ensures p.userImage.Some? ==> r.userImage == p.userImage.value
    ensures p.userImage.None? ==> r.userImage == u.userImage
    ensures p.socialId.Some? ==> r.socialId == p.socialId.value
    ensures p.socialId.None? ==> r.socialId == u.socialId
    ensures p.platform.Some? ==> r.platform == p.platform.value
    ensures p.platform.None? ==> r.platform == u.platform
    ensures r.name == u.name
  {
    u.(nickname := Pick(p.nickname, u.nickname), address := Pick(p.address, u.address),
       latitude := Pick(p.latitude, u.latitude), longitude := Pick(p.longitude, u.longitude),
       description := Pick(p.description, u.description), userImage := Pick(p.userImage, u.userImage),
       socialId := Pick(p.socialId, u.socialId), platform := Pick(p.platform, u.platform))
  }

  /** `updateUser`: 404 for an unknown user, otherwise the patched user is saved and returned. */
  function UpdateUser(db: Db, userId: nat, patch: UserPatch): (r: Mutation<User>)
    ensures r.Err? <==> !HasKey(db.users, userId)
    ensures r.Err? ==> r.error == NotFoundError(UserNotFoundMessage(userId))
    ensures r.Ok? ==> var db' := r.value.1;
      && db' == db.(users := db'.users)
      && r.value.0 == ApplyPatch(Get(db.users, userId).value.data, patch)
      && |db'.users.rows| == |db.users.rows| && db'.users.nextId == db.users.nextId
      && (forall i :: 0 <= i < |db.users.rows| && db.users.rows[i].id != userId ==> db'.users.rows[i] == db.users.rows[i])
      && (forall i :: 0 <= i < |db.users.rows| && db.users.rows[i].id == userId ==>
            db'.users.rows[i] == Row(userId, r.value.0))
  {
    match Get(db.users, userId)
    case None => Err(NotFoundError(UserNotFoundMessage(userId)))
    case Some(row) =>
      var u := ApplyPatch(row.data, patch);
      Ok((u, db.(users := Put(db.users, userId, u))))
  }

  /** A patch with no fields changes nothing. */
  lemma EmptyPatchChangesNothing(db: Db, userId: nat)
    requires Valid(db.users) && HasKey(db.users, userId)
    ensures UpdateUser(db, userId, UserPatch(None, None, None, None, None, None, None, None)) == Ok((Get(db.users, userId).value.data, db))
  {
    var r := UpdateUser(db, userId, UserPatch(None, None, None, None, None, None, None, None));
    var row := Get(db.users, userId).value;
    var db' := r.value.1;
    forall i | 0 <= i < |db.users.rows| ensures db'.users.rows[i] == db.users.rows[i] {
      if db.users.rows[i].id == userId {
        GetRow(db.users, i);
      }
    }
    assert db'.users.rows == db.users.rows;
  }

  /** Applying the same patch twice is the same as applying it once. */
  lemma UpdateUserIdempotent(db: Db, userId: nat, patch: UserPatch)
    requires Valid(db.users)
    requires UpdateUser(db, userId, patch).Ok?
    ensures var (u1, db1) := UpdateUser(db, userId, patch).value;
      UpdateUser(db1, userId, patch) == Ok((u1, db1))
  {
    var (u1, db1) := UpdateUser(db, userId, patch).value;
    var row := Get(db1.users, userId).value;
    var j :| 0 <= j < |db1.users.rows| && db1.users.rows[j] == row;
    assert db1.users.rows[j].data == u1;
    var db2 := UpdateUser(db1, userId, patch).value.1;
    assert db2.users.rows == db1.users.rows;
  }

  // ---------------------------------------------------------------------------
  // How the other services' writes move the statistics

  /** A like the user gives raises their like count by one; an unlike lowers it by one. */
  lemma LikeNumFollowsToggle(db: Db, userId: nat, productId: nat, other: nat)
    requires Consistent(db)
    requires Likes.ToggleLike(db, userId, productId).Ok?
    requires other != userId && HasKey(db.users, other)
    ensures var (outcome, db') := Likes.ToggleLike(db, userId, productId).value;
      && GetUserDetailById(db', userId).value.likeNum ==
           (if outcome == Likes.Liked then GetUserDetailById(db, userId).value.likeNum + 1
            else GetUserDetailById(db, userId).value.likeNum - 1)
      && GetUserDetailById(db', other).value.likeNum == GetUserDetailById(db, other).value.likeNum
  {
    ToggleCount(db.likes, Like(userId, productId), GivenBy(userId));
    ToggleCount(db.likes, Like(userId, productId), GivenBy(other));
  }

  /** A follow toggle moves the follower's following count and the followee's follower count together. */
  lemma FollowCountsFollowToggle(db: Db, a: nat, b: nat)
    requires Consistent(db) && HasKey(db.users, a) && HasKey(db.users, b)
    ensures var (followed, db') := Follows.ToggleFollow(db, a, b);
      && GetUserDetailById(db', a).value.followingNum ==
           (if followed then GetUserDetailById(db, a).value.followingNum + 1
            else GetUserDetailById(db, a).value.followingNum - 1)
      && GetUserDetailById(db', b).value.followNum ==
           (if followed then GetUserDetailById(db, b).value.followNum + 1
            else GetUserDetailById(db, b).value.followNum - 1)
  {
    var (followed, db') := Follows.ToggleFollow(db, a, b);
    assert db'.users == db.users && db'.products == db.products;
    ToggleCount(db.follows, Follow(a, b), FollowsFrom(a));
    ToggleCount(db.follows, Follow(a, b), FollowsTo(b));
    var before, after := GetUserDetailById(db, a), GetUserDetailById(db', a);
    assert after.value.followingNum == Count(db'.follows.rows, OnData(FollowsFrom(a)));
    assert before.value.followingNum == Count(db.follows.rows, OnData(FollowsFrom(a)));
    var before', after' := GetUserDetailById(db, b), GetUserDetailById(db', b);
    assert after'.value.followNum == Count(db'.follows.rows, OnData(FollowsTo(b)));
    assert before'.value.followNum == Count(db.follows.rows, OnData(FollowsTo(b)));
  }
}

=== FILE: wrappers.dfy ===
/** Failure-compatible wrappers used throughout the model. */
module Wrappers {

  /** An optional value; `None` also stands for JavaScript's `undefined` and SQL's NULL. */
  datatype Option<+T> = None | Some(value: T) {
    predicate IsFailure() {
      None?
    }

    function PropagateFailure<U>(): Option<U>
      requires None?
    {
      None
    }

    function Extract(): T
      requires Some?
    {
      value
    }
  }

  /** Either a value or the exception a service call throws. */
  datatype Result<+R, +E> = Ok(value: R) | Err(error: E) {
    predicate IsFailure() {
      Err?
    }

    function PropagateFailure<U>(): Result<U, E>
      requires Err?
    {
      Err(error)
    }

    function Extract(): R
      requires Ok?
    {
      value
    }
  }
}
